=== FILE: README.md ===
# Text normalisation and model promotion, modelled in Dafny

This project models two parts of an MLOps text-classification project.

**The text normaliser.** The Flask front end cleans the submitted `text` form field before it
reaches the vectoriser.
`normalize_text` applies six passes in a fixed order:

1. `lower_case`
2. `remove_stop_words`
3. `removing_numbers`
4. `removing_punctuations`
5. `removing_urls`
6. `lemmatization`

`flask-app/app.py` also defines `remove_small_sentences` beside the normaliser, though the app
itself never calls it. It blanks every row of a data frame that has fewer than three tokens. The
same normaliser occurs twice, in `flask-app/app.py` and `flask_app/app.py`. The two copies are identical apart from `remove_small_sentences`, which only
the first has. They are modelled once, and the table below cites both copies.

**Model promotion.** `promote_model` moves the registered model `my_model` from Staging to
Production in an MLflow model registry.

- It refuses to start without the `DAGSHUB_PAT` credential.
- It gives up if the Staging lookup fails or finds nothing.
- It tries to archive every current Production version, and skips the ones that fail.
- It then transitions the first Staging version to Production.

The registry is a map from `(name, version)` to stage. The client is a class that owns that map
and a log of every call. The service decides whether a call fails and which versions a lookup
returns, so those choices are nondeterministic in the client's methods.

Files:

- `wrappers.dfy`: `Option`.
- `seqs.dfy`: a generic list-comprehension filter, with its subsequence, count and idempotence
  lemmas.
- `text.dfy`: Python's `str.split`, `" ".join`, `str.strip` and `str.lower` on characters. It
  includes the round trips between split and join.
- `normalize.dfy`: the six passes and `normalize_text`.
- `sentences.dfy`: `remove_small_sentences` on an array of rows.
- `promotion.dfy`: `promote_model` and the registry client.

Characters follow Python's ASCII behaviour:

- whitespace for `split()`, `strip()` and `\s` is space, `\t\n\v\f\r` and `\x1c`–`\x1f`;
- a digit is `0`–`9`;
- `string.punctuation` is the 32 ASCII punctuation characters.

The stop-word set and the lemmatiser are parameters of the model. WordNet and the NLTK corpus are
not part of this model.

The order of the passes has a consequence. `removing_urls` runs after `removing_punctuations`,
which has already turned every `:`, `/` and `.` into a space. So the URL pass can never match
inside `normalize_text`: `UrlPassIsIdentity` proves that it returns its input unchanged. A URL in
the input text therefore reaches the lemmatiser as separate tokens such as `https`, `www` and `com`,
and the normalised text can still hold those URL fragments as tokens.

## Model

| member | source | states |
|---|---|---|
| `Seqs.Filter` | flask-app/app.py:23 | a list comprehension with a condition keeps only elements that pass it and never lengthens the list |
| `Seqs.FilterIsSubsequence` | flask-app/app.py:23 | the kept elements appear in the input, in the same order |
| `Seqs.FilterCounts` | flask-app/app.py:27 | every kept value occurs as often as in the input, and a rejected value does not occur at all |
| `Seqs.FilterIdempotent` | flask-app/app.py:27 | filtering twice with the same condition equals filtering once |
| `Seqs.FilterAllKept` | flask-app/app.py:27 | when every element passes, the list is unchanged |
| `Seqs.FilterElements` | flask-app/app.py:23 | every kept element is an element of the input |
| `Seqs.FilterAppend` | flask-app/app.py:23 | filtering a concatenation is concatenating the filtered parts |
| `Text.IsSpace` | flask-app/app.py:17-41 | the ASCII whitespace class of `str.split()`, `strip()`, `\s` and `\S` (space, `\t\n\v\f\r`, `\x1c`–`\x1f`): definition; used by `Split`, `Strip`, `CollapseSpaces` and `UrlMatchLen` |
| `Text.IsDigit` | flask-app/app.py:27 | `char.isdigit()` on ASCII, `0`–`9`: definition; used by `RemovingNumbers`, properties in `RemovingNumbersSpec` |
| `Normalize.IsPunctuation` | flask-app/app.py:35 | the 32 characters of `string.punctuation`: definition; used by `PunctToSpace`, properties in `BlankedChars` and `RemovingPunctuationsChars` |
| `Text.Lower` | flask-app/app.py:31 | `c.lower()` maps each upper-case letter to the lower-case letter at the same alphabet position, keeps whitespace as whitespace and leaves every other character unchanged |
| `Text.Split` | flask-app/app.py:17 | `str.split()` with no argument: definition; properties in `SplitWords`, `SplitJoin`, `JoinSplit`, `SplitStrip` |
| `Text.Join` | flask-app/app.py:19 | `" ".join(ws)`: definition; properties in `SplitJoin`, `JoinCanonical`, `JoinSplit` |
| `Text.Strip` | flask-app/app.py:37 | `str.strip()`: definition; properties in `StripSpec`, `SplitStrip` |
| `Text.TrimLeft` | flask-app/app.py:37 | the left half of `strip()` drops exactly the whitespace prefix: the result is a suffix of the input, what was dropped is all whitespace, and the result does not start with whitespace |
| `Text.TrimRight` | flask-app/app.py:37 | the right half of `strip()` drops exactly the whitespace suffix |
| `Text.MapWords` | flask-app/app.py:18 | `[f(w) for w in ws]` has one entry per token, the i-th being `f` of the i-th token |
| `Text.SplitWords` | flask-app/app.py:17 | every token of `split()` is non-empty and holds no whitespace |
| `Text.SplitAllSpace` | flask-app/app.py:46 | a text of whitespace only has no tokens |
| `Text.SplitTrimLeft` | flask-app/app.py:37 | dropping leading whitespace does not change the tokens |
| `Text.SplitTrimRight` | flask-app/app.py:37 | dropping trailing whitespace does not change the tokens |
| `Text.SplitStrip` | flask-app/app.py:37 | `strip()` does not change the tokens |
| `Text.SplitJoin` | flask-app/app.py:19 | splitting words joined by single spaces gives the same words back |
| `Text.JoinCanonical` | flask-app/app.py:19 | words joined by single spaces form a stripped, single-spaced text, empty exactly when there are no words |
| `Text.JoinSplit` | flask-app/app.py:30-32 | a stripped, single-spaced text is rebuilt exactly by joining its tokens |
| `Text.StripSpec` | flask-app/app.py:37 | `strip()` leaves no whitespace at either end, is the identity on a stripped text, and returns a contiguous slice of its input |
| `Normalize.LowerWord` | flask-app/app.py:31 | `word.lower()` keeps the word's length and lower-cases every character, and nothing else |
| `Normalize.LowerCase` | flask-app/app.py:29-32 | `lower_case`: definition; properties in `LowerCaseSpec`, `LowerCaseIdempotent` |
| `Normalize.KeptTokens` | flask-app/app.py:23 | the comprehension over `split()` that drops stop words: definition; properties in `KeptTokensSpec` |
| `Normalize.RemoveStopWords` | flask-app/app.py:21-24 | `remove_stop_words`: definition; properties in `RemoveStopWordsTokens` |
| `Normalize.RemovingNumbers` | flask-app/app.py:26-27 | `removing_numbers`: definition; properties in `RemovingNumbersSpec`, `RemovingNumbersIdempotent` |
| `Normalize.Blanked` | flask-app/app.py:35-36 | punctuation turned into spaces, then the Arabic semicolon deleted: definition; properties in `BlankedChars` |
| `Normalize.RemovingPunctuations` | flask-app/app.py:34-38 | `removing_punctuations`: definition; properties in `RemovingPunctuationsChars`, `RemovingPunctuationsCanonical`, `RemovingPunctuationsTokens`, `RemovingPunctuationsIdempotent` |
| `Normalize.UrlsCut` | flask-app/app.py:40-42 | reference for `removing_urls`, token by token: definition; tied to `RemovingUrls` by `RemovingUrlsWordwise` |
| `Normalize.Lemmatization` | flask-app/app.py:15-19 | `lemmatization`: definition; properties in `LemmatizationSpec` |
| `Normalize.NormalizeText` | flask-app/app.py:49-56 | `normalize_text`, the six passes in order: definition; properties in `NormalizeTextSpec`, `NormalizeTextEmpty`, `NormalizeTextFixedPoint`, `UrlPassIsIdentity` |
| `Normalize.LowerCaseSpec` | flask-app/app.py:29-32 | the result is single-spaced with no leading or trailing space; its tokens are the input's tokens lower-cased one by one, in order; no token holds an upper-case letter |
| `Normalize.LowerCaseIdempotent` | flask_app/app.py:27-30 | lower-casing twice is the same as lower-casing once |
| `Normalize.RemoveStopWordsTokens` | flask-app/app.py:21-24 | the tokens of the result are exactly the input tokens that are not stop words, and the result is single-spaced and stripped |
| `Normalize.KeptTokensSpec` | flask_app/app.py:19-22 | the kept tokens are a subsequence of the input tokens; none of them is a stop word; every other word keeps its number of occurrences |
| `Normalize.RemovingNumbersSpec` | flask-app/app.py:26-27 | the result holds no digit and is a subsequence of the input; every non-digit keeps its number of occurrences |
| `Normalize.RemovingNumbersIdempotent` | flask_app/app.py:24-25 | removing digits twice equals removing them once; a text without digits is unchanged |
| `Normalize.PunctToSpace` | flask-app/app.py:35 | each punctuation character becomes one space and every other character is kept, position by position |
| `Normalize.CollapseSpaces` | flask-app/app.py:37 | each run of whitespace becomes a single space: no two spaces are adjacent, no other whitespace is left, and the text is empty only if the input was |
| `Normalize.CollapseLast` | flask-app/app.py:37 | the collapse ends in a space exactly when the input ends in whitespace, so a trailing run becomes one space and a last non-whitespace character is kept |
| `Normalize.CollapseCharsFrom` | flask-app/app.py:37 | collapsing whitespace introduces no character other than a space |
| `Normalize.CollapseWord` | flask-app/app.py:37 | a leading word is copied unchanged and the collapse carries on after it |
| `Normalize.SplitCollapse` | flask-app/app.py:37 | collapsing whitespace does not change the tokens |
| `Normalize.CollapseFixed` | flask-app/app.py:37 | a text already single-spaced is left unchanged |
| `Normalize.BlankedChars` | flask-app/app.py:35-36 | after substitution and deletion of the Arabic semicolon, no punctuation and no Arabic semicolon is left, and every character is a space or came from the input |
| `Normalize.RemovingPunctuationsSlice` | flask-app/app.py:37 | `strip()` returns a contiguous slice of the collapsed text |
| `Normalize.RemovingPunctuationsChars` | flask-app/app.py:34-38 | the result holds no punctuation and no Arabic semicolon, and each of its characters is a space or occurs in the input |
| `Normalize.RemovingPunctuationsCanonical` | flask-app/app.py:34-38 | the result is single-spaced and has no leading or trailing whitespace |
| `Normalize.RemovingPunctuationsTokens` | flask-app/app.py:34-38 | the result is the blanked text's tokens joined by single spaces |
| `Normalize.RemovingPunctuationsFixed` | flask_app/app.py:32-36 | a single-spaced, stripped text without punctuation is left unchanged |
| `Normalize.RemovingPunctuationsIdempotent` | flask_app/app.py:32-36 | removing punctuation twice equals removing it once |
| `Normalize.UrlPrefixLen` | flask-app/app.py:41 | the length of an `https://`, `http://` or `www.` prefix never exceeds the text |
| `Normalize.UrlMatchLen` | flask-app/app.py:41 | a match is a prefix followed by at least one non-space character, and it stops at whitespace or the end of the text |
| `Normalize.UrlMatchExtent` | flask-app/app.py:41 | a match covers no whitespace after its prefix, and a prefix followed by a non-space character always gives a match |
| `Normalize.UrlMatchWholeWord` | flask-app/app.py:41 | the greedy `\S+` makes a match cover exactly the token it starts |
| `Normalize.RemovingUrls` | flask-app/app.py:40-42 | substituting matches by the empty string never lengthens the text |
| `Normalize.CutAtUrl` | flask-app/app.py:41-42 | a token cut at a match start is a prefix of the token |
| `Normalize.CutAtUrlSpec` | flask-app/app.py:41-42 | the cut keeps the longest prefix of the token in which no match starts, and a match starts where it cuts |
| `Normalize.RemovingUrlsWord` | flask-app/app.py:40-42 | on a token followed by whitespace or the end, `removing_urls` outputs the cut token and carries on after it |
| `Normalize.RemovingUrlsWordwise` | flask-app/app.py:40-42 | `removing_urls` equals the token-by-token reference `UrlsCut`: every whitespace character survives, a token in which no match starts survives whole, and any other token loses everything from its first match start |
| `Normalize.RemovingUrlsSubsequence` | flask-app/app.py:40-42 | the output is a subsequence of the input: the pass only deletes |
| `Normalize.UrlPrefixNonSpace` | flask-app/app.py:41 | a URL prefix holds no whitespace |
| `Normalize.UrlMatchNeedsMarker` | flask-app/app.py:41 | a match starts with `https://`, `http://` or `www.`, and so has a `:` at position 4 or 5 or a `.` at position 3 |
| `Normalize.UrlMatchTransfer` | flask-app/app.py:41 | a match depends only on the prefix and the first character after it |
| `Normalize.RemovingUrlsIdentity` | flask-app/app.py:40-42 | a text with no match at any position is returned unchanged |
| `Normalize.RemovingUrlsWithoutMarkers` | flask-app/app.py:40-42 | a text that contains none of `http://`, `https://` and `www.` is returned unchanged |
| `Normalize.RemovingUrlsWithoutColonOrDot` | flask_app/app.py:38-40 | a text with no `:` and no `.` is returned unchanged |
| `Normalize.RemovingUrlsKeepsLeadingSpace` | flask-app/app.py:40-42 | a leading whitespace character is never removed |
| `Normalize.RemovingUrlsFirstWord` | flask-app/app.py:40-42 | the first word of the result is a prefix of the input |
| `Normalize.UrlMatchInFirstWord` | flask-app/app.py:41 | a match's prefix lies inside the first word |
| `Normalize.UrlMatchSameFirstWord` | flask-app/app.py:41 | two texts with the same first word agree on whether a match starts there |
| `Normalize.NoUrlMatchAtHead` | flask-app/app.py:40-42 | when the input does not start with a match, neither does the result |
| `Normalize.RemovingUrlsLeavesNoMatch` | flask-app/app.py:40-42 | the result contains no match at any position, so a second pass removes nothing |
| `Normalize.LemmatizationSpec` | flask-app/app.py:15-19 | the result's tokens are the input's tokens lemmatised one by one, as many and in the same order, joined by single spaces |
| `Normalize.UrlPassIsIdentity` | flask-app/app.py:53-54 | in the pipeline order, the URL pass returns the punctuation pass's output unchanged |
| `Normalize.RemovingPunctuationsKeepsNoDigits` | flask-app/app.py:52-53 | the punctuation pass introduces no digit |
| `Normalize.NormalizeTextSpec` | flask-app/app.py:49-56 | normalisation lemmatises a text that is digit-free, punctuation-free, single-spaced and stripped |
| `Normalize.NormalizeTextEmpty` | flask_app/app.py:42-49 | empty input text normalises to the empty string |
| `Normalize.NormalizeTextFixedPoint` | flask_app/app.py:42-49 | a stripped, single-spaced text without digits or punctuation, whose tokens are lower-case, not stop words and fixed by the lemmatiser, normalises to itself |
| `Sentences.CleanedRow` | flask-app/app.py:46-47 | a row is blanked exactly when it has fewer than three tokens; otherwise it is kept unchanged |
| `Sentences.RemoveSmallSentences` | flask-app/app.py:44-47 | every row becomes its cleaned value in place, and every row still present has at least three tokens |
| `Promotion.ArchiveCalls` | scripts/promote_model.py:37-43 | one archive call per Production version, in list order, each asking for Archived |
| `Promotion.Trace` | scripts/promote_model.py:23-56 | the calls a run makes, in order, for each outcome: definition; properties in `NoTransitionUnlessFinished`, `PromotionOrder`, `FailuresSkipped`, `OnlyMyModelTouched` |
| `Promotion.AfterStaging` | scripts/promote_model.py:36-56 | the calls after a Staging lookup that listed a version: definition; tied to `Trace` by `TraceAfterLookup` |
| `Promotion.Step` | scripts/promote_model.py:39-54 | the effect of one call on the registry: definition; properties in `ApplyUntouched`, `ApplyLastSet` |
| `Promotion.Apply` | scripts/promote_model.py:23-56 | the registry after a sequence of calls: definition; properties in `ApplyNoTransitions`, `ApplyAppend`, `ApplyUntouched`, `ApplyLastSet` |
| `Promotion.TraceAfterLookup` | scripts/promote_model.py:23-36 | a run that got past the Staging lookup starts with it, and that lookup has no effect on the registry |
| `Promotion.ApplyNoTransitions` | scripts/promote_model.py:24 | lookups never change the registry |
| `Promotion.ApplyAppend` | scripts/promote_model.py:36-53 | applying two runs of calls in turn equals applying their concatenation |
| `Promotion.ApplyUntouched` | scripts/promote_model.py:39-43 | a version that no successful transition names keeps its stage |
| `Promotion.ApplyLastSet` | scripts/promote_model.py:39-53 | a version ends at the stage of the last successful transition that names it |
| `Promotion.NoTransitionUnlessFinished` | scripts/promote_model.py:6-36 | a missing credential makes no call at all; an empty or failed Staging lookup, or a failed Production lookup, makes no transition and leaves the registry unchanged |
| `Promotion.FilterAllRejected` | scripts/promote_model.py:23-36 | a run of lookups contains no transition |
| `Promotion.PromotionOrder` | scripts/promote_model.py:36-53 | the transitions are the archive of every Production version in order, then the promotion of the first Staging version, and there are as many archives as Production versions |
| `Promotion.FailuresSkipped` | scripts/promote_model.py:44-45 | which transitions are attempted, and in which order, does not depend on any of them failing |
| `Promotion.OnlyMyModelTouched` | scripts/promote_model.py:20 | every call names `my_model`; only Archived and Production are ever requested; every other registered model is left unchanged |
| `Promotion.PromotedIsInProduction` | scripts/promote_model.py:48-54 | after a successful promotion, the first Staging version is in Production |
| `Promotion.NoRollback` | scripts/promote_model.py:55-56 | when the Production lookup listed every version of `my_model` that is in Production, every archive succeeds and the promotion fails, no version of `my_model` is left in Production |
| `Promotion.RegistryClient.constructor` | scripts/promote_model.py:19 | a new client sees the given registry and has made no call |
| `Promotion.RegistryClient.GetLatestVersions` | scripts/promote_model.py:24 | a lookup fails or lists only versions at the asked stage; it changes nothing and is logged |
| `Promotion.RegistryClient.TransitionModelVersionStage` | scripts/promote_model.py:39-43 | a transition succeeds only for a registered version; on success the version gets the stage; the call is logged |
| `Promotion.RegistryClient.ArchiveAll` | scripts/promote_model.py:36-46 | the loop makes one archive attempt per Production version, carries on after failures, and leaves the registry as those attempts make it |
| `Promotion.RegistryClient.PromoteModel` | scripts/promote_model.py:4-56 | the run stops at once exactly when the credential is absent or empty; the lookups agree with the registry; the log is the run's trace and the registry is that trace applied to the registry it started from |
| `Promotion.RegistryClient.PromoteWithCredential` | scripts/promote_model.py:22-56 | with the credential set, the run never reports a missing credential; its lookups agree with the registry; the log grows by the run's trace and the registry becomes that trace applied to it |
| `Promotion.RegistryClient.PromoteFromStaging` | scripts/promote_model.py:33-56 | once Staging listed a version, the run either stops at a failed Production lookup or finishes, promoting the first Staging version; a Production lookup that answers agrees with the registry; log and registry follow the calls made |

## Left out

- Unicode: case mapping, `isdigit` and whitespace cover ASCII only. The Arabic semicolon U+061B is the one non-ASCII character modelled.
- The English stop-word list and the WordNet lemmatiser are parameters. Their contents are not part of this model.
- `Normalize.LemmatizationSpec`: assumes the lemmatiser maps a word to a non-empty word without whitespace. WordNet does, but that is not proved here.
- The Flask routes, the pickled vectoriser and model, `transform` and `predict`: these are I/O and calls into libraries.
- `os.environ`, `mlflow.set_tracking_uri` and every `print` in `promote_model`: these are environment side effects and console output. Only the outcome and the registry calls are modelled.
- `Promotion.RegistryClient.GetLatestVersions`: returns any list of versions at the asked stage, not only the latest one per stage, because which version the service returns is not visible from the client.
- `Promotion.NoRollback`: holds only when the Production lookup listed every Production version of `my_model`. The real `get_latest_versions` lists only the latest version per stage, so an older Production version that it does not list is neither archived nor covered by the lemma, and can stay in Production.
- `Promotion.RegistryClient.TransitionModelVersionStage`: a failed transition is taken to leave the registry unchanged, and archiving an existing archived version is allowed. Partial failures on the service side are not modelled.
- `Promotion.RegistryClient.PromoteModel`: the exception raised for a missing credential and the one propagated from a failed Production lookup are modelled as `CredentialMissing` and `ProductionLookupFailed` outcomes, not as exceptions.
- `Sentences.RemoveSmallSentences`: requires every row to hold a string. A row that is already NaN would make `split` fail in the source, and that failure is not modelled.
- The pandas data frame is an array of rows. Chained-assignment and copy semantics of `df.text.iloc[i] = ...` are not modelled.
- Model evaluation, registration, the DagsHub setup and the tests are not part of this model.

=== FILE: normalize.dfy ===
/**
 * The text normaliser of the prediction service: six passes over a string, applied in a
 * fixed order by `NormalizeText`. The NLTK English stop-word list and the WordNet
 * lemmatiser are parameters (`stopWords`, `lemmatize`).
 */
module Normalize {
  import opened Seqs
  import opened Text

  /** Python's `string.punctuation`: the 32 printable ASCII characters that are neither
      letters, digits nor space (`!` to `/`, `:` to `@`, `[` to the back-quote, `{` to `~`). */
  predicate IsPunctuation(c: char) {
    '!' <= c <= '/' || ':' <= c <= '@' || '[' <= c <= '`' || '{' <= c <= '~'
  }

  /** The Arabic semicolon U+061B, deleted separately by `removing_punctuations`. */
  const ArabicSemicolon: char := '\U{061B}'

  predicate NoDigits(s: string) {
    forall i :: 0 <= i < |s| ==> !IsDigit(s[i])
  }

  /** Neither ASCII punctuation nor the Arabic semicolon. */
  predicate NoPunctuation(s: string) {
    forall i :: 0 <= i < |s| ==> !IsPunctuation(s[i]) && s[i] != ArabicSemicolon
  }

  /** Every character of `r` is a plain space or occurs in `s`. */
  predicate CharsFrom(r: string, s: string) {
    forall i :: 0 <= i < |r| ==> r[i] == ' ' || r[i] in s
  }

  // ---------------------------------------------------------------------------
  // lower_case
  // ---------------------------------------------------------------------------

  /** `word.lower()` on ASCII. */
  function LowerWord(w: string): (r: string)
    ensures |r| == |w|
    ensures forall i :: 0 <= i < |w| ==> r[i] == Lower(w[i])
  {
    seq(|w|, i requires 0 <= i < |w| => Lower(w[i]))
  }

  /** `lower_case`: the lowered tokens joined by single spaces. */
  function LowerCase(text: string): string {
    Join(MapWords(Split(text), LowerWord))
  }

  /** The result of `lower_case` is canonically spaced and its tokens are the input's
      tokens lowered, in the same order, none with an upper-case letter left. */
  lemma LowerCaseSpec(text: string)
    ensures Canonical(LowerCase(text))
    ensures Split(LowerCase(text)) == MapWords(Split(text), LowerWord)
    ensures forall i, j :: 0 <= i < |Split(LowerCase(text))| && 0 <= j < |Split(LowerCase(text))[i]|
              ==> !IsUpper(Split(LowerCase(text))[i][j])
  {
    var ws := MapWords(Split(text), LowerWord);
    SplitWords(text);
    assert AllWords(ws);
    SplitJoin(ws);
    JoinCanonical(ws);
  }

  /** `lower_case` is idempotent. */
  lemma LowerCaseIdempotent(text: string)
    ensures LowerCase(LowerCase(text)) == LowerCase(text)
  {
    LowerCaseSpec(text);
    var ws := MapWords(Split(text), LowerWord);
    forall i | 0 <= i < |ws|
      ensures LowerWord(ws[i]) == ws[i]
    {
      assert ws[i] == LowerWord(Split(text)[i]);
    }
    assert MapWords(ws, LowerWord) == ws;
  }

  // ---------------------------------------------------------------------------
  // remove_stop_words
  // ---------------------------------------------------------------------------

  /** The test `word not in stop_words`. */
  function NotStopWord(stopWords: set<string>): string -> bool {
    w => w !in stopWords
  }

  /** The tokens `remove_stop_words` keeps: `[word for word in text.split() if word not in stop_words]`. */
  function KeptTokens(text: string, stopWords: set<string>): seq<string> {
    Filter(Split(text), NotStopWord(stopWords))
  }

  /** `remove_stop_words`: the kept tokens joined by single spaces. */
  function RemoveStopWords(text: string, stopWords: set<string>): string {
    Join(KeptTokens(text, stopWords))
  }

  /** The tokens of `remove_stop_words`' output are exactly the kept tokens, and the
      output is canonically spaced. */
  lemma RemoveStopWordsTokens(text: string, stopWords: set<string>)
    ensures Split(RemoveStopWords(text, stopWords)) == KeptTokens(text, stopWords)
    ensures Canonical(RemoveStopWords(text, stopWords))
  {
    var ws := KeptTokens(text, stopWords);
    FilterElements(Split(text), NotStopWord(stopWords));
    SplitWords(text);
    forall i | 0 <= i < |ws|
      ensures IsWord(ws[i])
    {
      assert ws[i] in Split(text);
    }
    SplitJoin(KeptTokens(text, stopWords));
    JoinCanonical(KeptTokens(text, stopWords));
  }

  /** The kept tokens are exactly the tokens outside the stop set, in their order: a
      sub-sequence of the input's tokens, none a stop word, and every other token as
      often as in the input. */
  lemma KeptTokensSpec(text: string, stopWords: set<string>)
    ensures IsSubsequence(KeptTokens(text, stopWords), Split(text))
    ensures |KeptTokens(text, stopWords)| <= |Split(text)|
    ensures forall i :: 0 <= i < |KeptTokens(text, stopWords)| ==> KeptTokens(text, stopWords)[i] !in stopWords
    ensures forall w :: w !in stopWords ==> multiset(KeptTokens(text, stopWords))[w] == multiset(Split(text))[w]
  {
    var keep := NotStopWord(stopWords);
    FilterIsSubsequence(Split(text), keep);
    FilterCounts(Split(text), keep);
    forall w | w !in stopWords
      ensures multiset(KeptTokens(text, stopWords))[w] == multiset(Split(text))[w]
    {
      assert keep(w);
    }
  }

  // ---------------------------------------------------------------------------
  // removing_numbers
  // ---------------------------------------------------------------------------

  predicate NotDigit(c: char) {
    !IsDigit(c)
  }

  /** `removing_numbers`: drops every digit character. */
  function RemovingNumbers(text: string): string {
    Filter(text, NotDigit)
  }

  /** `removing_numbers` deletes exactly the digits: its output has none, is a
      sub-sequence of the input, and keeps every other character as often as it occurs. */
  lemma RemovingNumbersSpec(text: string)
    ensures NoDigits(RemovingNumbers(text))
    ensures |RemovingNumbers(text)| <= |text|
    ensures IsSubsequence(RemovingNumbers(text), text)
    ensures forall c :: !IsDigit(c) ==> multiset(RemovingNumbers(text))[c] == multiset(text)[c]
  {
    FilterIsSubsequence(text, NotDigit);
    FilterCounts(text, NotDigit);
  }

  /** `removing_numbers` is idempotent, and the identity on text without digits. */
  lemma RemovingNumbersIdempotent(text: string)
    ensures RemovingNumbers(RemovingNumbers(text)) == RemovingNumbers(text)
    ensures NoDigits(text) ==> RemovingNumbers(text) == text
  {
    FilterIdempotent(text, NotDigit);
    if NoDigits(text) {
      FilterAllKept(text, NotDigit);
    }
  }

  // ---------------------------------------------------------------------------
  // removing_punctuations
  // ---------------------------------------------------------------------------

  /** `re.sub('[%s]' % re.escape(string.punctuation), ' ', text)`. */
  function PunctToSpace(s: string): (r: string)
    ensures |r| == |s|
    ensures forall i :: 0 <= i < |s| ==> r[i] == if IsPunctuation(s[i]) then ' ' else s[i]
  {
    seq(|s|, i requires 0 <= i < |s| => if IsPunctuation(s[i]) then ' ' else s[i])
  }

  predicate NotArabicSemicolon(c: char) {
    c != ArabicSemicolon
  }

  /** `re.sub(r'\s+', ' ', s)`: every maximal whitespace run becomes one space. */
  function CollapseSpaces(s: string): (r: string)
    ensures SingleSpaced(r)
    ensures r == [] <==> s == []
    ensures s != [] ==> r[0] == if IsSpace(s[0]) then ' ' else s[0]
    decreases |s|
  {
    if s == [] then []
    else if IsSpace(s[0]) then
      var t := TrimLeft(s);
      assert |t| < |s| by {
        assert t == [] || t[0] == s[|s| - |t|];
      }
      " " + CollapseSpaces(t)
    else [s[0]] + CollapseSpaces(s[1..])
  }

  /** The collapse ends in a space exactly when the input ends in whitespace: a trailing
      run of whitespace becomes one space, and a last non-whitespace character is kept. */
  lemma {:induction false} CollapseLast(s: string)
    requires s != []
    ensures CollapseSpaces(s)[|CollapseSpaces(s)| - 1] == if IsSpace(s[|s| - 1]) then ' ' else s[|s| - 1]
    decreases |s|
  {
    var r := CollapseSpaces(s);
    if IsSpace(s[0]) {
      var t := TrimLeft(s);
      var c := CollapseSpaces(t);
      assert r == " " + c;
      if t == [] {
        assert s[..|s|] == s;
      } else {
        CollapseLast(t);
        assert t[|t| - 1] == s[|s| - 1];
        assert r[|r| - 1] == c[|c| - 1];
      }
    } else {
      var c := CollapseSpaces(s[1..]);
      assert r == [s[0]] + c;
      if |s| > 1 {
        CollapseLast(s[1..]);
        assert r[|r| - 1] == c[|c| - 1];
      }
    }
  }

  /** The text `removing_punctuations` hands to its whitespace clean-up: punctuation
      turned into spaces, then the Arabic semicolon deleted. */
  function Blanked(s: string): string {
    Filter(PunctToSpace(s), NotArabicSemicolon)
  }

  /** `removing_punctuations`. */
  function RemovingPunctuations(text: string): string {
    Strip(CollapseSpaces(Blanked(text)))
  }

  /** Putting a space, or a character of `s`, in front of text drawn from a suffix of `s`
      gives text drawn from `s`. */
  lemma CharsFromSuffix(x: string, c: char, s: string, k: nat)
    requires k <= |s| && CharsFrom(x, s[k..]) && (c == ' ' || c in s)
    ensures CharsFrom([c] + x, s)
  {
    forall i | 0 <= i < |[c] + x| && ([c] + x)[i] != ' '
      ensures ([c] + x)[i] in s
    {
      if i > 0 {
        assert x[i - 1] in s[k..];
        var j :| 0 <= j < |s[k..]| && s[k..][j] == x[i - 1];
        assert s[k + j] == x[i - 1];
      }
    }
  }

  /** Collapsing introduces no character but the space. */
  lemma {:induction false} CollapseCharsFrom(s: string)
    ensures CharsFrom(CollapseSpaces(s), s)
    decreases |s|
  {
    if s != [] {
      if IsSpace(s[0]) {
        var t := TrimLeft(s);
        CollapseCharsFrom(t);
        CharsFromSuffix(CollapseSpaces(t), ' ', s, |s| - |t|);
      } else {
        CollapseCharsFrom(s[1..]);
        CharsFromSuffix(CollapseSpaces(s[1..]), s[0], s, 1);
      }
    }
  }

  /** A non-whitespace character in front is copied by the collapse. */
  lemma CollapseCons(c: char, t: string)
    requires !IsSpace(c)
    ensures CollapseSpaces([c] + t) == [c] + CollapseSpaces(t)
  {
    assert ([c] + t)[1..] == t;
  }

  /** A leading word passes through collapsing unchanged. */
  lemma {:induction false} CollapseWord(w: string, rest: string)
    requires IsWord(w)
    ensures CollapseSpaces(w + rest) == w + CollapseSpaces(rest)
  {
    if |w| == 1 {
      assert w == [w[0]];
      CollapseCons(w[0], rest);
    } else {
      var t := w[1..];
      assert w + rest == [w[0]] + (t + rest);
      CollapseCons(w[0], t + rest);
      CollapseWord(t, rest);
      assert w == [w[0]] + t;
    }
  }

  /** Collapsing whitespace runs does not change the tokens. */
  lemma {:induction false} SplitCollapse(s: string)
    ensures Split(CollapseSpaces(s)) == Split(s)
    decreases |s|
  {
    if s != [] {
      if IsSpace(s[0]) {
        var t := TrimLeft(s);
        SplitCollapse(t);
        SplitTrimLeft(s);
        assert (" " + CollapseSpaces(t))[1..] == CollapseSpaces(t);
      } else {
        var n := WordLen(s);
        var w, rest := s[..n], s[n..];
        assert s == w + rest;
        CollapseWord(w, rest);
        SplitWordHead(w, rest);
        SplitWordHead(w, CollapseSpaces(rest));
        SplitCollapse(rest);
      }
    }
  }

  /** Single-spaced text is left as it is by the collapse. */
  lemma {:induction false} CollapseFixed(s: string)
    requires SingleSpaced(s)
    ensures CollapseSpaces(s) == s
  {
    if s != [] {
      SingleSpacedSlice(s, 1, |s|);
      CollapseFixed(s[1..]);
      CollapseFixedStep(s);
    }
  }

  /** The inductive step of `CollapseFixed`: a single-spaced text is fixed when its tail is. */
  lemma CollapseFixedStep(s: string)
    requires s != [] && SingleSpaced(s) && CollapseSpaces(s[1..]) == s[1..]
    ensures CollapseSpaces(s) == s
  {
    var t := s[1..];
    if IsSpace(s[0]) {
      assert t == [] || !IsSpace(t[0]);
      assert TrimLeft(t) == t;
      assert s == " " + t;
    } else {
      CollapseCons(s[0], t);
      assert s == [s[0]] + t;
    }
  }

  /** The punctuation-blanked text has no punctuation and adds no character but the space. */
  lemma BlankedChars(text: string)
    ensures NoPunctuation(Blanked(text))
    ensures CharsFrom(Blanked(text), text)
  {
    var b := Blanked(text);
    FilterElements(PunctToSpace(text), NotArabicSemicolon);
    forall i | 0 <= i < |b|
      ensures !IsPunctuation(b[i]) && b[i] != ArabicSemicolon
      ensures b[i] == ' ' || b[i] in text
    {
      assert NotArabicSemicolon(b[i]);
      assert b[i] in PunctToSpace(text);
    }
  }

  /** The strip at the end of the pass keeps a slice of the collapsed text. */
  lemma RemovingPunctuationsSlice(text: string)
    ensures exists lo, hi ::
              0 <= lo <= hi <= |CollapseSpaces(Blanked(text))| &&
              RemovingPunctuations(text) == CollapseSpaces(Blanked(text))[lo..hi]
  {
    StripSpec(CollapseSpaces(Blanked(text)));
  }

  /** Character provenance composes. */
  lemma CharsFromTrans(a: string, b: string, c: string)
    requires CharsFrom(a, b) && CharsFrom(b, c)
    ensures CharsFrom(a, c)
  {
    forall i | 0 <= i < |a| && a[i] != ' '
      ensures a[i] in c
    {
      var k :| 0 <= k < |b| && b[k] == a[i];
    }
  }

  /** Text whose characters come from punctuation-free text is punctuation-free. */
  lemma NoPunctuationFrom(a: string, b: string)
    requires CharsFrom(a, b) && NoPunctuation(b)
    ensures NoPunctuation(a)
  {
    forall i | 0 <= i < |a| && a[i] != ' '
      ensures !IsPunctuation(a[i]) && a[i] != ArabicSemicolon
    {
      var k :| 0 <= k < |b| && b[k] == a[i];
    }
  }

  /** A slice draws its characters from the whole. */
  lemma CharsFromSlice(c: string, lo: nat, hi: nat)
    requires lo <= hi <= |c|
    ensures CharsFrom(c[lo..hi], c)
  {
    forall i | 0 <= i < hi - lo
      ensures c[lo..hi][i] in c
    {
      assert c[lo..hi][i] == c[lo + i];
    }
  }

  /** `removing_punctuations` leaves no ASCII punctuation and no Arabic semicolon, and
      adds no character but the space. */
  lemma RemovingPunctuationsChars(text: string)
    ensures NoPunctuation(RemovingPunctuations(text))
    ensures CharsFrom(RemovingPunctuations(text), text)
  {
    var b := Blanked(text);
    var c := CollapseSpaces(b);
    var r := RemovingPunctuations(text);
    RemovingPunctuationsSlice(text);
    var lo, hi :| 0 <= lo <= hi <= |c| && r == c[lo..hi];
    CharsFromSlice(c, lo, hi);
    CollapseCharsFrom(b);
    BlankedChars(text);
    CharsFromTrans(r, c, b);
    CharsFromTrans(r, b, text);
    NoPunctuationFrom(c, b);
    NoPunctuationFrom(r, c);
  }

  /** The output of `removing_punctuations` has no whitespace at either end and no two
      whitespace characters in a row, every one of them a plain space. */
  lemma RemovingPunctuationsCanonical(text: string)
    ensures Canonical(RemovingPunctuations(text))
  {
    var c := CollapseSpaces(Blanked(text));
    StripSpec(c);
    RemovingPunctuationsSlice(text);
    var lo, hi :| 0 <= lo <= hi <= |c| && RemovingPunctuations(text) == c[lo..hi];
    SingleSpacedSlice(c, lo, hi);
  }

  /** `removing_punctuations` is the single-space join of the tokens of the
      punctuation-blanked text. */
  lemma RemovingPunctuationsTokens(text: string)
    ensures Split(RemovingPunctuations(text)) == Split(Blanked(text))
    ensures RemovingPunctuations(text) == Join(Split(Blanked(text)))
  {
    var c := CollapseSpaces(Blanked(text));
    SplitStrip(c);
    SplitCollapse(Blanked(text));
    RemovingPunctuationsCanonical(text);
    JoinSplit(RemovingPunctuations(text));
  }

  /** Text without punctuation that is already canonically spaced is a fixed point. */
  lemma RemovingPunctuationsFixed(text: string)
    requires NoPunctuation(text) && Canonical(text)
    ensures RemovingPunctuations(text) == text
  {
    assert PunctToSpace(text) == text;
    FilterAllKept(text, NotArabicSemicolon);
    CollapseFixed(text);
    StripSpec(text);
  }

  /** `removing_punctuations` is idempotent. */
  lemma RemovingPunctuationsIdempotent(text: string)
    ensures RemovingPunctuations(RemovingPunctuations(text)) == RemovingPunctuations(text)
  {
    RemovingPunctuationsChars(text);
    RemovingPunctuationsCanonical(text);
    RemovingPunctuationsFixed(RemovingPunctuations(text));
  }

  // ---------------------------------------------------------------------------
  // removing_urls
  // ---------------------------------------------------------------------------

  /** Length of the literal part of `https?://` or `www\.` at the start of `s`; 0 when neither is there. */
  function UrlPrefixLen(s: string): (p: nat)
    ensures p <= |s|
  {
    if "https://" <= s then 8
    else if "http://" <= s then 7
    else if "www." <= s then 4
    else 0
  }

  /** Length of the match of `https?://\S+|www\.\S+` at the start of `s`, with the greedy `\S+`
      taking the whole run of non-whitespace (at least one character); 0 when there is no match. */
  function UrlMatchLen(s: string): (n: nat)
    ensures n <= |s|
    ensures n > 0 ==> UrlPrefixLen(s) > 0 && n > UrlPrefixLen(s) && !IsSpace(s[UrlPrefixLen(s)])
    ensures n > 0 ==> n == |s| || IsSpace(s[n])
  {
    var p := UrlPrefixLen(s);
    if p > 0 && WordLen(s[p..]) > 0 then p + WordLen(s[p..]) else 0
  }

  /** A match covers no whitespace after its literal part, and a literal part followed by a
      non-whitespace character always starts a match. */
  lemma UrlMatchExtent(s: string)
    ensures forall i :: UrlPrefixLen(s) <= i < UrlMatchLen(s) ==> !IsSpace(s[i])
    ensures 0 < UrlPrefixLen(s) < |s| && !IsSpace(s[UrlPrefixLen(s)]) ==> UrlMatchLen(s) > 0
  {
    var p := UrlPrefixLen(s);
    forall i | p <= i < UrlMatchLen(s)
      ensures !IsSpace(s[i])
    {
      assert s[i] == s[p..][i - p];
    }
    if 0 < p < |s| {
      assert s[p..][0] == s[p];
    }
  }

  /** `removing_urls`: `re.sub` scans left to right and deletes every match. */
  function RemovingUrls(text: string): (r: string)
    ensures |r| <= |text|
    decreases |text|
  {
    if text == [] then []
    else
      var n := UrlMatchLen(text);
      if n > 0 then RemovingUrls(text[n..]) else [text[0]] + RemovingUrls(text[1..])
  }

  /** No match of the URL pattern starts anywhere in `s`. */
  predicate NoUrlMatch(s: string) {
    forall i :: 0 <= i < |s| ==> UrlMatchLen(s[i..]) == 0
  }

  /** The literal part of a URL has no whitespace. */
  lemma UrlPrefixNonSpace(s: string)
    ensures forall j :: 0 <= j < UrlPrefixLen(s) ==> !IsSpace(s[j])
  {
    var p := UrlPrefixLen(s);
    var lit := s[..p];
    forall j | 0 <= j < p
      ensures !IsSpace(s[j])
    {
      assert s[j] == lit[j];
      assert lit[j] in lit;
    }
  }

  /** A URL match starts with "https://", "http://" or "www.", so it needs a ':' at
      position 4 or 5, or a '.' at position 3. */
  lemma UrlMatchNeedsMarker(s: string)
    ensures UrlMatchLen(s) > 0 ==> "https://" <= s || "http://" <= s || "www." <= s
    ensures UrlMatchLen(s) > 0 ==>
      (|s| > 4 && s[4] == ':') || (|s| > 5 && s[5] == ':') || (|s| > 3 && s[3] == '.')
  {
    if "https://" <= s {
      assert s[5] == "https://"[5];
    } else if "http://" <= s {
      assert s[4] == "http://"[4];
    } else if "www." <= s {
      assert s[3] == "www."[3];
    }
  }

  /** Whether a URL matches depends only on its literal part and the character after it. */
  lemma UrlMatchTransfer(x: string, y: string)
    ensures (UrlMatchLen(x) > 0 && UrlPrefixLen(x) < |y| &&
             x[..UrlPrefixLen(x) + 1] == y[..UrlPrefixLen(x) + 1]) ==> UrlMatchLen(y) > 0
  {
    var p := UrlPrefixLen(x);
    if UrlMatchLen(x) > 0 && p < |y| && x[..p + 1] == y[..p + 1] {
      assert x[..p] == y[..p];
      if p == 8 {
        assert x[..8] == "https://";
      } else if p == 7 {
        assert x[..7] == "http://";
        assert y[4] == x[4];
      } else {
        assert x[..4] == "www.";
        assert y[0] == x[0];
      }
      assert UrlPrefixLen(y) == p;
      assert y[p..][0] == x[p..][0];
    }
  }

  /** Text on which the pattern matches nowhere is left unchanged. */
  lemma {:induction false} RemovingUrlsIdentity(text: string)
    requires NoUrlMatch(text)
    ensures RemovingUrls(text) == text
  {
    if text != [] {
      assert text[0..] == text;
      forall i | 0 <= i < |text[1..]|
        ensures UrlMatchLen(text[1..][i..]) == 0
      {
        assert text[1..][i..] == text[i + 1..];
      }
      RemovingUrlsIdentity(text[1..]);
      assert text == [text[0]] + text[1..];
    }
  }

  /** Text containing none of "http://", "https://" and "www." is left unchanged. */
  lemma RemovingUrlsWithoutMarkers(text: string)
    requires forall i :: 0 <= i <= |text| ==>
      !("http://" <= text[i..]) && !("https://" <= text[i..]) && !("www." <= text[i..])
    ensures RemovingUrls(text) == text
  {
    forall i | 0 <= i < |text|
      ensures UrlMatchLen(text[i..]) == 0
    {
      assert UrlPrefixLen(text[i..]) == 0;
    }
    RemovingUrlsIdentity(text);
  }

  /** Text without ':' and '.' is left unchanged. */
  lemma RemovingUrlsWithoutColonOrDot(text: string)
    requires forall i :: 0 <= i < |text| ==> text[i] != ':' && text[i] != '.'
    ensures RemovingUrls(text) == text
  {
    forall i | 0 <= i < |text|
      ensures UrlMatchLen(text[i..]) == 0
    {
      UrlMatchNeedsMarker(text[i..]);
      if |text[i..]| > 5 {
        assert text[i..][5] == text[i + 5];
      }
      if |text[i..]| > 4 {
        assert text[i..][4] == text[i + 4];
      }
      if |text[i..]| > 3 {
        assert text[i..][3] == text[i + 3];
      }
    }
    RemovingUrlsIdentity(text);
  }

  /** A whitespace character at the start is never part of a match, so it is kept. */
  lemma RemovingUrlsKeepsLeadingSpace(text: string)
    ensures text != [] && IsSpace(text[0]) ==>
      RemovingUrls(text) != [] && RemovingUrls(text)[0] == text[0]
  {
    UrlPrefixNonSpace(text);
  }

  /** The first token of the output is copied from the start of the input. */
  lemma {:induction false} RemovingUrlsFirstWord(text: string)
    ensures WordLen(RemovingUrls(text)) <= |text|
    ensures RemovingUrls(text)[..WordLen(RemovingUrls(text))] == text[..WordLen(RemovingUrls(text))]
    decreases |text|
  {
    if text != [] {
      var n := UrlMatchLen(text);
      if n > 0 {
        RemovingUrlsKeepsLeadingSpace(text[n..]);
        assert RemovingUrls(text) == RemovingUrls(text[n..]);
      } else {
        RemovingUrlsFirstWord(text[1..]);
        FirstWordCons(text[0], RemovingUrls(text[1..]), text[1..]);
        assert text == [text[0]] + text[1..];
      }
    }
  }

  /** Putting the same character in front of two texts keeps the first token of one a
      prefix of the other. */
  lemma FirstWordCons(c: char, x: string, y: string)
    requires WordLen(x) <= |y| && x[..WordLen(x)] == y[..WordLen(x)]
    ensures WordLen([c] + x) <= |[c] + y|
    ensures ([c] + x)[..WordLen([c] + x)] == ([c] + y)[..WordLen([c] + x)]
  {
    if IsSpace(c) {
      assert ([c] + x)[0] == c;
    } else {
      var m := WordLen(x);
      WordLenCons(c, x);
      assert ([c] + y)[..1 + m] == [c] + y[..m];
    }
  }

  /** A URL match lies inside the first token. */
  lemma UrlMatchInFirstWord(x: string)
    ensures UrlMatchLen(x) > 0 ==> WordLen(x) > UrlPrefixLen(x)
  {
    UrlPrefixNonSpace(x);
  }

  /** Two texts that share a first token either both have a URL at their head or neither has. */
  lemma UrlMatchSameFirstWord(x: string, y: string)
    requires WordLen(x) <= |y| && x[..WordLen(x)] == y[..WordLen(x)]
    ensures UrlMatchLen(x) > 0 ==> UrlMatchLen(y) > 0
  {
    UrlMatchInFirstWord(x);
    UrlMatchTransfer(x, y);
    var p, m := UrlPrefixLen(x), WordLen(x);
    if UrlMatchLen(x) > 0 {
      assert x[..p + 1] == x[..m][..p + 1];
      assert y[..p + 1] == y[..m][..p + 1];
    }
  }

  /** When no URL starts at the head of the input, none starts at the head of the output. */
  lemma NoUrlMatchAtHead(text: string)
    requires UrlMatchLen(text) == 0
    ensures UrlMatchLen(RemovingUrls(text)) == 0
  {
    RemovingUrlsFirstWord(text);
    UrlMatchSameFirstWord(RemovingUrls(text), text);
  }

  /** After `removing_urls` no match of `https?://\S+|www\.\S+` is left anywhere. */
  lemma {:induction false} RemovingUrlsLeavesNoMatch(text: string)
    ensures NoUrlMatch(RemovingUrls(text))
    decreases |text|
  {
    if text != [] {
      var n := UrlMatchLen(text);
      if n > 0 {
        RemovingUrlsLeavesNoMatch(text[n..]);
        assert RemovingUrls(text) == RemovingUrls(text[n..]);
      } else {
        var t := text[1..];
        var r, rt := RemovingUrls(text), RemovingUrls(t);
        RemovingUrlsLeavesNoMatch(t);
        assert r == [text[0]] + rt;
        NoUrlMatchAtHead(text);
        forall i | 0 <= i < |r|
          ensures UrlMatchLen(r[i..]) == 0
        {
          if i > 0 {
            assert r[i..] == rt[i - 1..];
          } else {
            assert r[0..] == r;
          }
        }
      }
    }
  }

  /** A match runs to the end of the token it starts: the literal part and the `\S+` after it
      together cover the whole run of non-whitespace. */
  lemma UrlMatchWholeWord(s: string)
    ensures UrlMatchLen(s) > 0 ==> UrlMatchLen(s) == WordLen(s)
  {
    var p := UrlPrefixLen(s);
    if UrlMatchLen(s) > 0 {
      UrlPrefixNonSpace(s);
      WordLenSkip(s, p);
    }
  }

  /** Skipping `p` leading non-whitespace characters shortens the first token by `p`. */
  lemma {:induction false} WordLenSkip(s: string, p: nat)
    requires p <= |s| && forall j :: 0 <= j < p ==> !IsSpace(s[j])
    ensures WordLen(s) == p + WordLen(s[p..])
    decreases p
  {
    if p == 0 {
      assert s[0..] == s;
    } else {
      WordLenSkip(s[1..], p - 1);
      assert s[1..][p - 1..] == s[p..];
    }
  }

  /** A token cut just before the first position where a URL match starts; the whole token
      when no match starts in it. */
  function CutAtUrl(w: string): (r: string)
    ensures |r| <= |w| && r == w[..|r|]
  {
    if w == [] || UrlMatchLen(w) > 0 then [] else [w[0]] + CutAtUrl(w[1..])
  }

  /** No match starts in the part `CutAtUrl` keeps. */
  lemma {:induction false} CutAtUrlKeeps(w: string, i: nat)
    requires i < |CutAtUrl(w)|
    ensures UrlMatchLen(w[i..]) == 0
    decreases i
  {
    if i == 0 {
      assert w[0..] == w;
    } else {
      assert CutAtUrl(w) == [w[0]] + CutAtUrl(w[1..]);
      CutAtUrlKeeps(w[1..], i - 1);
      assert w[1..][i - 1..] == w[i..];
    }
  }

  /** Where `CutAtUrl` cuts, a match starts. */
  lemma {:induction false} CutAtUrlCuts(w: string)
    ensures |CutAtUrl(w)| < |w| ==> UrlMatchLen(w[|CutAtUrl(w)|..]) > 0
  {
    if w != [] {
      if UrlMatchLen(w) > 0 {
        assert w[0..] == w;
      } else {
        var r := CutAtUrl(w[1..]);
        assert CutAtUrl(w) == [w[0]] + r;
        CutAtUrlCuts(w[1..]);
        assert w[1..][|r|..] == w[|r| + 1..];
      }
    }
  }

  /** `CutAtUrl` keeps the longest prefix of the token in which no match starts. */
  lemma CutAtUrlSpec(w: string)
    ensures forall i :: 0 <= i < |CutAtUrl(w)| ==> UrlMatchLen(w[i..]) == 0
    ensures |CutAtUrl(w)| < |w| ==> UrlMatchLen(w[|CutAtUrl(w)|..]) > 0
  {
    forall i | 0 <= i < |CutAtUrl(w)|
      ensures UrlMatchLen(w[i..]) == 0
    {
      CutAtUrlKeeps(w, i);
    }
    CutAtUrlCuts(w);
  }

  /** What `removing_urls` leaves, token by token: whitespace is kept as it is, and each
      token is cut before the first position where a match starts. */
  function UrlsCut(s: string): string
    decreases |s|
  {
    if s == [] then []
    else if IsSpace(s[0]) then [s[0]] + UrlsCut(s[1..])
    else
      var n := WordLen(s);
      CutAtUrl(s[..n]) + UrlsCut(s[n..])
  }

  /** A match starts at a token exactly when it starts at the token followed by whitespace,
      and then it covers the whole token. */
  lemma UrlMatchAtWord(w: string, rest: string)
    requires IsWord(w) && (rest == [] || IsSpace(rest[0]))
    ensures (UrlMatchLen(w + rest) > 0) == (UrlMatchLen(w) > 0)
    ensures UrlMatchLen(w + rest) > 0 ==> UrlMatchLen(w + rest) == |w|
  {
    var s := w + rest;
    assert WordLen(w) == |w|;
    WordLenAppend(w, rest);
    assert s[..|w|] == w && w[..|w|] == w;
    UrlMatchSameFirstWord(s, w);
    UrlMatchSameFirstWord(w, s);
    UrlMatchWholeWord(s);
  }

  /** A match covering the whole leading token deletes all of it. */
  lemma RemovingUrlsSkip(w: string, rest: string)
    requires 0 < |w| == UrlMatchLen(w + rest) && UrlMatchLen(w) > 0
    ensures RemovingUrls(w + rest) == CutAtUrl(w) + RemovingUrls(rest)
  {
    assert (w + rest)[|w|..] == rest;
    assert CutAtUrl(w) == [];
    assert [] + RemovingUrls(rest) == RemovingUrls(rest);
  }

  /** A character at which no match starts is copied. */
  lemma RemovingUrlsKeep(c: char, t: string)
    requires UrlMatchLen([c] + t) == 0
    ensures RemovingUrls([c] + t) == [c] + RemovingUrls(t)
  {
    assert ([c] + t)[1..] == t;
  }

  /** A character at which no match starts is copied by `removing_urls` and kept by the cut,
      so the token-wise equation carries over from the rest of the token. */
  lemma RemovingUrlsWordCons(c: char, t: string, rest: string)
    requires UrlMatchLen([c] + t) == 0 && UrlMatchLen([c] + (t + rest)) == 0
    requires RemovingUrls(t + rest) == CutAtUrl(t) + RemovingUrls(rest)
    ensures RemovingUrls([c] + (t + rest)) == CutAtUrl([c] + t) + RemovingUrls(rest)
  {
    RemovingUrlsKeep(c, t + rest);
    assert ([c] + t)[1..] == t;
    AppendAssoc([c], CutAtUrl(t), RemovingUrls(rest));
  }

  /** The token-wise equation for the empty token. */
  lemma RemovingUrlsEmptyCut(rest: string)
    ensures RemovingUrls([] + rest) == CutAtUrl([]) + RemovingUrls(rest)
  {
    assert [] + rest == rest;
  }

  /** On a token followed by whitespace or the end of the text, `removing_urls` outputs
      the cut token and carries on after it. */
  lemma {:induction false} RemovingUrlsWord(w: string, rest: string)
    requires IsWord(w) && (rest == [] || IsSpace(rest[0]))
    ensures RemovingUrls(w + rest) == CutAtUrl(w) + RemovingUrls(rest)
    decreases |w|
  {
    UrlMatchAtWord(w, rest);
    if UrlMatchLen(w) > 0 {
      RemovingUrlsSkip(w, rest);
    } else {
      var c, t := w[0], w[1..];
      assert w == [c] + t;
      assert w + rest == [c] + (t + rest);
      if t == [] {
        RemovingUrlsEmptyCut(rest);
      } else {
        RemovingUrlsWord(t, rest);
      }
      RemovingUrlsWordCons(c, t, rest);
    }
  }

  /** `removing_urls` is the token-by-token cut: whitespace survives unchanged, a token in
      which no match starts survives whole, and any other token loses everything from the
      first position where a match starts. */
  lemma {:induction false} RemovingUrlsWordwise(s: string)
    ensures RemovingUrls(s) == UrlsCut(s)
    decreases |s|
  {
    if s != [] {
      if IsSpace(s[0]) {
        UrlPrefixNonSpace(s);
        assert UrlMatchLen(s) == 0;
        RemovingUrlsWordwise(s[1..]);
      } else {
        var n := WordLen(s);
        var w, rest := s[..n], s[n..];
        assert s == w + rest;
        RemovingUrlsWord(w, rest);
        RemovingUrlsWordwise(rest);
      }
    }
  }

  /** `b` with a prefix dropped still contains every subsequence of what is left. */
  lemma {:induction false} SkipPrefix<T>(a: seq<T>, b: seq<T>, k: nat)
    requires k <= |b| && IsSubsequence(a, b[k..])
    ensures IsSubsequence(a, b)
    decreases k
  {
    if k > 0 {
      assert b[1..][k - 1..] == b[k..];
      SkipPrefix(a, b[1..], k - 1);
      SkipFirst(a, b);
    }
  }

  /** `removing_urls` only deletes characters: its output is a subsequence of its input. */
  lemma {:induction false} RemovingUrlsSubsequence(text: string)
    ensures IsSubsequence(RemovingUrls(text), text)
    decreases |text|
  {
    if text != [] {
      var n := UrlMatchLen(text);
      if n > 0 {
        RemovingUrlsSubsequence(text[n..]);
        SkipPrefix(RemovingUrls(text[n..]), text, n);
      } else {
        var r := RemovingUrls(text[1..]);
        RemovingUrlsSubsequence(text[1..]);
        assert ([text[0]] + r)[1..] == r;
      }
    }
  }

  // ---------------------------------------------------------------------------
  // lemmatization
  // ---------------------------------------------------------------------------

  /** `lemmatization`: every token replaced by its lemma, joined by single spaces. */
  function Lemmatization(text: string, lemmatize: string -> string): string {
    Join(MapWords(Split(text), lemmatize))
  }

  /** With a lemmatiser that maps tokens to tokens, `lemmatization` maps the tokens
      one-to-one and in order, and its output is canonically spaced. */
  lemma LemmatizationSpec(text: string, lemmatize: string -> string)
    requires forall w :: IsWord(w) ==> IsWord(lemmatize(w))
    ensures Split(Lemmatization(text, lemmatize)) == MapWords(Split(text), lemmatize)
    ensures |Split(Lemmatization(text, lemmatize))| == |Split(text)|
    ensures Canonical(Lemmatization(text, lemmatize))
  {
    var ws := MapWords(Split(text), lemmatize);
    SplitWords(text);
    assert AllWords(ws);
    SplitJoin(ws);
    JoinCanonical(ws);
  }

  // ---------------------------------------------------------------------------
  // normalize_text
  // ---------------------------------------------------------------------------

  /** `normalize_text`: the six passes in their fixed order. */
  function NormalizeText(text: string, stopWords: set<string>, lemmatize: string -> string): string {
    var lowered := LowerCase(text);
    var unstopped := RemoveStopWords(lowered, stopWords);
    var noDigits := RemovingNumbers(unstopped);
    var noPunctuation := RemovingPunctuations(noDigits);
    var noUrls := RemovingUrls(noPunctuation);
    Lemmatization(noUrls, lemmatize)
  }

  /** Punctuation removal deletes every ':' and '.', so the URL pass after it never fires. */
  lemma UrlPassIsIdentity(text: string)
    ensures RemovingUrls(RemovingPunctuations(text)) == RemovingPunctuations(text)
  {
    var r := RemovingPunctuations(text);
    RemovingPunctuationsChars(text);
    assert forall i :: 0 <= i < |r| ==> r[i] != ':' && r[i] != '.' by {
      assert NoPunctuation(r);
    }
    RemovingUrlsWithoutColonOrDot(r);
  }

  /** The punctuation pass keeps text free of digits. */
  lemma RemovingPunctuationsKeepsNoDigits(text: string)
    requires NoDigits(text)
    ensures NoDigits(RemovingPunctuations(text))
  {
    var r := RemovingPunctuations(text);
    RemovingPunctuationsChars(text);
    forall i | 0 <= i < |r|
      ensures !IsDigit(r[i])
    {
      if r[i] != ' ' {
        var k :| 0 <= k < |text| && text[k] == r[i];
      }
    }
  }

  /** `normalize_text` lemmatises the punctuation pass's output directly (the URL pass does
      nothing), and that text has no digit, no punctuation and canonical single spacing. */
  lemma NormalizeTextSpec(text: string, stopWords: set<string>, lemmatize: string -> string)
    ensures var prepared := RemovingPunctuations(RemovingNumbers(RemoveStopWords(LowerCase(text), stopWords)));
      && NormalizeText(text, stopWords, lemmatize) == Lemmatization(prepared, lemmatize)
      && NoDigits(prepared) && NoPunctuation(prepared) && Canonical(prepared)
  {
    var noDigits := RemovingNumbers(RemoveStopWords(LowerCase(text), stopWords));
    RemovingNumbersSpec(RemoveStopWords(LowerCase(text), stopWords));
    RemovingPunctuationsKeepsNoDigits(noDigits);
    RemovingPunctuationsChars(noDigits);
    RemovingPunctuationsCanonical(noDigits);
    UrlPassIsIdentity(noDigits);
  }

  /** `normalize_text("") == ""`. */
  lemma NormalizeTextEmpty(stopWords: set<string>, lemmatize: string -> string)
    ensures NormalizeText("", stopWords, lemmatize) == ""
  {
    assert LowerCase("") == "";
    assert RemoveStopWords("", stopWords) == "";
    assert RemovingNumbers("") == "";
    assert CollapseSpaces(Blanked("")) == "";
    assert RemovingPunctuations("") == "";
  }

  /** Already-normalised text is a fixed point: canonically spaced, without digits or
      punctuation, every token lower-case, not a stop word and its own lemma. */
  lemma NormalizeTextFixedPoint(text: string, stopWords: set<string>, lemmatize: string -> string)
    requires Canonical(text) && NoDigits(text) && NoPunctuation(text)
    requires forall i :: 0 <= i < |Split(text)| ==>
      LowerWord(Split(text)[i]) == Split(text)[i] && Split(text)[i] !in stopWords && lemmatize(Split(text)[i]) == Split(text)[i]
    ensures NormalizeText(text, stopWords, lemmatize) == text
  {
    var ws := Split(text);
    JoinSplit(text);
    assert MapWords(ws, LowerWord) == ws;
    assert LowerCase(text) == text;
    FilterAllKept(ws, NotStopWord(stopWords));
    assert RemoveStopWords(text, stopWords) == text;
    RemovingNumbersIdempotent(text);
    RemovingPunctuationsFixed(text);
    UrlPassIsIdentity(text);
    assert MapWords(ws, lemmatize) == ws;
  }
}

=== FILE: promotion.dfy ===
/**
 * `promote_model`: moves the latest Staging version of the registered model "my_model" to
 * Production, after trying to archive every current Production version.
 *
 * The model registry is abstracted as a map from model versions to lifecycle stages, and the
 * registry client as a class that keeps that map and a log of every call made through it.
 * Whether a remote call fails, and which versions a lookup returns, is decided by the
 * service: the client's methods choose it nondeterministically.
 */
module Promotion {
  import opened Wrappers
  import opened Seqs

  type Version = nat

  /** The registry's lifecycle stages ("None", "Staging", "Production", "Archived"). */
  datatype Stage = NoStage | Staging | Production | Archived

  datatype ModelVersion = ModelVersion(name: string, version: Version)

  type Registry = map<ModelVersion, Stage>

  /** The answer to `get_latest_versions`: an exception, or a list of versions. */
  datatype Lookup = LookupFailed | Found(versions: seq<Version>)

  /** One call made through the client, with what it returned. */
  datatype Call =
    | GetLatest(name: string, stage: Stage, result: Lookup)
    | Transition(name: string, version: Version, stage: Stage, ok: bool)

  /** The only registered model the script touches. */
  const ModelName: string := "my_model"

  /** How a run of `promote_model` went, with every answer the registry gave. */
  datatype Outcome =
    | CredentialMissing                                  // EnvironmentError, raised before any call
    | StagingLookupFailed                                // error printed, function returns
    | NothingInStaging                                   // message printed, function returns
    | ProductionLookupFailed(staging: seq<Version>)      // the exception propagates to the caller
    | Finished(staging: seq<Version>, production: seq<Version>, archived: seq<bool>, promoted: bool)

  /** The outcomes `promote_model` can reach: it only looks up Production once Staging is non-empty,
      and it makes one archive attempt per Production version. */
  predicate WellFormed(out: Outcome) {
    match out
    case ProductionLookupFailed(staging) => staging != []
    case Finished(staging, production, archived, _) => staging != [] && |archived| == |production|
    case _ => true
  }

  /** Every version listed by a lookup is at the stage that was asked for. */
  predicate Listed(reg: Registry, name: string, stage: Stage, versions: seq<Version>) {
    forall i :: 0 <= i < |versions| ==>
      ModelVersion(name, versions[i]) in reg && reg[ModelVersion(name, versions[i])] == stage
  }

  /** The lookups recorded in an outcome agree with the registry they were made against. */
  predicate LookupsAgree(reg: Registry, out: Outcome) {
    match out
    case ProductionLookupFailed(staging) => Listed(reg, ModelName, Staging, staging)
    case Finished(staging, production, _, _) =>
      Listed(reg, ModelName, Staging, staging) && Listed(reg, ModelName, Production, production)
    case _ => true
  }

  /** The archive attempts of the loop over `prod_versions`, with their outcomes. */
  function ArchiveCalls(production: seq<Version>, archived: seq<bool>): (r: seq<Call>)
    requires |archived| == |production|
    ensures |r| == |production|
    ensures forall i :: 0 <= i < |r| ==> r[i] == Transition(ModelName, production[i], Archived, archived[i])
  {
    seq(|production|, i requires 0 <= i < |production| => Transition(ModelName, production[i], Archived, archived[i]))
  }

  /** The calls a run with outcome `out` makes, in order. */
  function Trace(out: Outcome): seq<Call>
    requires WellFormed(out)
  {
    match out
    case CredentialMissing => []
    case StagingLookupFailed => [GetLatest(ModelName, Staging, LookupFailed)]
    case NothingInStaging => [GetLatest(ModelName, Staging, Found([]))]
    case ProductionLookupFailed(staging) => [GetLatest(ModelName, Staging, Found(staging))] + AfterStaging(out)
    case Finished(staging, _, _, _) => [GetLatest(ModelName, Staging, Found(staging))] + AfterStaging(out)
  }

  /** The calls a run makes once the Staging lookup has listed a version: the Production lookup,
      then the archive attempts and the promotion. */
  function AfterStaging(out: Outcome): seq<Call>
    requires WellFormed(out) && (out.ProductionLookupFailed? || out.Finished?)
  {
    match out
    case ProductionLookupFailed(_) => [GetLatest(ModelName, Production, LookupFailed)]
    case Finished(staging, production, archived, promoted) =>
      [GetLatest(ModelName, Production, Found(production))]
      + ArchiveCalls(production, archived)
      + [Transition(ModelName, staging[0], Production, promoted)]
  }

  /** A finished run: both lookups, one archive attempt per Production version, then the promotion. */
  lemma TraceFinished(out: Outcome)
    requires WellFormed(out) && out.Finished?
    ensures Trace(out) ==
      [GetLatest(ModelName, Staging, Found(out.staging)), GetLatest(ModelName, Production, Found(out.production))]
      + ArchiveCalls(out.production, out.archived)
      + [Transition(ModelName, out.staging[0], Production, out.promoted)]
  {
  }

  /** A run that got past the Staging lookup: that lookup, then the calls after it, which alone
      decide the registry. */
  lemma TraceAfterLookup(reg: Registry, out: Outcome)
    requires WellFormed(out) && (out.ProductionLookupFailed? || out.Finished?)
    ensures Trace(out) == [GetLatest(ModelName, Staging, Found(out.staging))] + AfterStaging(out)
    ensures Apply(reg, Trace(out)) == Apply(reg, AfterStaging(out))
  {
    var lookup := [GetLatest(ModelName, Staging, Found(out.staging))];
    ApplyNoTransitions(reg, lookup);
    ApplyAppend(reg, lookup, AfterStaging(out));
  }

  /** The effect of one call on the registry: a successful transition sets the version's stage. */
  function Step(reg: Registry, call: Call): Registry {
    if call.Transition? && call.ok then reg[ModelVersion(call.name, call.version) := call.stage] else reg
  }

  /** The registry after a sequence of calls. */
  function Apply(reg: Registry, calls: seq<Call>): Registry
  {
    if calls == [] then reg else Step(Apply(reg, calls[..|calls| - 1]), calls[|calls| - 1])
  }

  predicate IsTransition(call: Call) {
    call.Transition?
  }

  /** The stage-transition calls among `calls`, in order. */
  function Transitions(calls: seq<Call>): seq<Call> {
    Filter(calls, IsTransition)
  }

  /** What a transition call asked for, without its outcome. */
  function Requested(calls: seq<Call>): seq<(string, Version, Stage)>
    requires forall i :: 0 <= i < |calls| ==> calls[i].Transition?
  {
    seq(|calls|, i requires 0 <= i < |calls| => (calls[i].name, calls[i].version, calls[i].stage))
  }

  /** A successful transition of version `k`. */
  predicate Sets(call: Call, k: ModelVersion) {
    call.Transition? && call.ok && ModelVersion(call.name, call.version) == k
  }

  /** Calls that change nothing leave the registry as it was. */
  lemma {:induction false} ApplyNoTransitions(reg: Registry, calls: seq<Call>)
    requires forall i :: 0 <= i < |calls| ==> !calls[i].Transition?
    ensures Apply(reg, calls) == reg
  {
    if calls != [] {
      ApplyNoTransitions(reg, calls[..|calls| - 1]);
    }
  }

  /** Applying two sequences of calls is applying their concatenation. */
  lemma {:induction false} ApplyAppend(reg: Registry, a: seq<Call>, b: seq<Call>)
    ensures Apply(reg, a + b) == Apply(Apply(reg, a), b)
  {
    if b == [] {
      assert a + b == a;
    } else {
      assert (a + b)[..|a + b| - 1] == a + b[..|b| - 1];
      ApplyAppend(reg, a, b[..|b| - 1]);
    }
  }

  /** A version that no successful transition names keeps its entry. */
  lemma {:induction false} ApplyUntouched(reg: Registry, calls: seq<Call>, k: ModelVersion)
    requires forall i :: 0 <= i < |calls| ==> !Sets(calls[i], k)
    ensures (k in Apply(reg, calls)) == (k in reg)
    ensures k in reg ==> Apply(reg, calls)[k] == reg[k]
  {
    if calls != [] {
      ApplyUntouched(reg, calls[..|calls| - 1], k);
    }
  }

  /** The last successful transition of a version decides its stage. */
  lemma {:induction false} ApplyLastSet(reg: Registry, calls: seq<Call>, k: ModelVersion, j: nat)
    requires j < |calls| && Sets(calls[j], k)
    requires forall i :: j < i < |calls| ==> !Sets(calls[i], k)
    ensures k in Apply(reg, calls) && Apply(reg, calls)[k] == calls[j].stage
  {
    if j < |calls| - 1 {
      ApplyLastSet(reg, calls[..|calls| - 1], k, j);
    }
  }

  // ---------------------------------------------------------------------------
  // What a run of promote_model does
  // ---------------------------------------------------------------------------

  /** Without a credential nothing is called; when the Staging lookup fails or finds nothing,
      or the Production lookup fails, no stage transition is made and the registry is unchanged. */
  lemma NoTransitionUnlessFinished(reg: Registry, out: Outcome)
    requires WellFormed(out) && !out.Finished?
    ensures out.CredentialMissing? ==> Trace(out) == []
    ensures Transitions(Trace(out)) == []
    ensures Apply(reg, Trace(out)) == reg
  {
    ApplyNoTransitions(reg, Trace(out));
    FilterAllRejected(Trace(out));
  }

  /** No call in `calls` is a stage transition. */
  lemma {:induction false} FilterAllRejected(calls: seq<Call>)
    requires forall i :: 0 <= i < |calls| ==> !calls[i].Transition?
    ensures Transitions(calls) == []
  {
    if calls != [] {
      FilterAllRejected(calls[1..]);
    }
  }

  /** A completed run makes one archive attempt per listed Production version, in list order,
      and then one attempt to move the first Staging version to Production. */
  lemma PromotionOrder(out: Outcome)
    requires WellFormed(out) && out.Finished?
    ensures Transitions(Trace(out)) ==
      ArchiveCalls(out.production, out.archived) + [Transition(ModelName, out.staging[0], Production, out.promoted)]
    ensures |Transitions(Trace(out))| == |out.production| + 1
  {
    var lookups := [GetLatest(ModelName, Staging, Found(out.staging)), GetLatest(ModelName, Production, Found(out.production))];
    var archives := ArchiveCalls(out.production, out.archived);
    var promote := [Transition(ModelName, out.staging[0], Production, out.promoted)];
    TraceFinished(out);
    AppendAssoc(lookups, archives, promote);
    FilterAppend(lookups, archives + promote, IsTransition);
    FilterAppend(archives, promote, IsTransition);
    FilterAllRejected(lookups);
    FilterAllKept(archives, IsTransition);
    FilterAllKept(promote, IsTransition);
  }

  /** A failed archive is skipped: which transitions are attempted, and in which order, does not
      depend on whether any of them succeeds. */
  lemma FailuresSkipped(staging: seq<Version>, production: seq<Version>, archived: seq<bool>, promoted: bool)
    requires staging != [] && |archived| == |production|
    ensures var ts := Transitions(Trace(Finished(staging, production, archived, promoted)));
      (forall i :: 0 <= i < |ts| ==> ts[i].Transition?) &&
      Requested(ts) ==
        seq(|production|, i requires 0 <= i < |production| => (ModelName, production[i], Archived))
        + [(ModelName, staging[0], Production)]
  {
    PromotionOrder(Finished(staging, production, archived, promoted));
  }

  /** Only "my_model" is named, the only stages written are Archived and Production, and no other
      registered model changes. */
  lemma OnlyMyModelTouched(reg: Registry, out: Outcome)
    requires WellFormed(out)
    ensures forall i :: 0 <= i < |Trace(out)| ==> Trace(out)[i].name == ModelName
    ensures forall i :: 0 <= i < |Trace(out)| && Trace(out)[i].Transition? ==>
      Trace(out)[i].stage == Archived || Trace(out)[i].stage == Production
    ensures forall k: ModelVersion :: k.name != ModelName ==>
      (k in Apply(reg, Trace(out))) == (k in reg) && (k in reg ==> Apply(reg, Trace(out))[k] == reg[k])
  {
    var t := Trace(out);
    if out.Finished? {
      assert forall i :: 2 <= i < |t| - 1 ==> t[i] == ArchiveCalls(out.production, out.archived)[i - 2];
    }
    forall k: ModelVersion | k.name != ModelName
      ensures (k in Apply(reg, t)) == (k in reg) && (k in reg ==> Apply(reg, t)[k] == reg[k])
    {
      ApplyUntouched(reg, t, k);
    }
  }

  /** A successful promotion leaves the first Staging version in Production. */
  lemma PromotedIsInProduction(reg: Registry, out: Outcome)
    requires WellFormed(out) && out.Finished? && out.promoted
    ensures ModelVersion(ModelName, out.staging[0]) in Apply(reg, Trace(out))
    ensures Apply(reg, Trace(out))[ModelVersion(ModelName, out.staging[0])] == Production
  {
    var t := Trace(out);
    ApplyLastSet(reg, t, ModelVersion(ModelName, out.staging[0]), |t| - 1);
  }

  /** There is no rollback: when every archive succeeds but the promotion fails, and the
      Production lookup listed every Production version, no version of "my_model" is left in
      Production. */
  lemma NoRollback(reg: Registry, staging: seq<Version>, production: seq<Version>, archived: seq<bool>)
    requires staging != [] && |archived| == |production|
    requires forall i :: 0 <= i < |archived| ==> archived[i]
    requires forall v: Version ::
               ModelVersion(ModelName, v) in reg && reg[ModelVersion(ModelName, v)] == Production ==> v in production
    ensures var after := Apply(reg, Trace(Finished(staging, production, archived, false)));
      forall v: Version :: ModelVersion(ModelName, v) in after ==> after[ModelVersion(ModelName, v)] != Production
  {
    var t := Trace(Finished(staging, production, archived, false));
    TraceFinished(Finished(staging, production, archived, false));
    var after := Apply(reg, t);
    assert |t| == |production| + 3;
    forall v: Version | ModelVersion(ModelName, v) in after
      ensures after[ModelVersion(ModelName, v)] != Production
    {
      var k := ModelVersion(ModelName, v);
      var j := LastIndexOf(production, v);
      if j >= 0 {
        assert t[2 + j] == Transition(ModelName, v, Archived, true);
        forall i | 2 + j < i < |t|
          ensures !Sets(t[i], k)
        {
          if i < |t| - 1 {
            assert t[i] == Transition(ModelName, production[i - 2], Archived, archived[i - 2]);
          }
        }
        ApplyLastSet(reg, t, k, 2 + j);
      } else {
        forall i | 0 <= i < |t|
          ensures !Sets(t[i], k)
        {
          if 2 <= i < |t| - 1 {
            assert t[i] == Transition(ModelName, production[i - 2], Archived, archived[i - 2]);
          }
        }
        ApplyUntouched(reg, t, k);
      }
    }
  }

  // ---------------------------------------------------------------------------
  // The registry client
  // ---------------------------------------------------------------------------

  class RegistryClient {
    var stages: Registry
    var log: seq<Call>

    constructor (initial: Registry)
      ensures stages == initial && log == []
    {
      stages := initial;
      log := [];
    }

    /** `client.get_latest_versions(name, stages=[stage])`: may raise; otherwise lists
        versions of `name` that are at `stage`. The registry is not changed. */
    method GetLatestVersions(name: string, stage: Stage) returns (r: Lookup)
      modifies this
      ensures r.Found? ==> Listed(old(stages), name, stage, r.versions)
      ensures stages == old(stages)
      ensures log == old(log) + [GetLatest(name, stage, r)]
    {
      var failed: bool :| true;
      if failed {
        r := LookupFailed;
      } else {
        assert Listed(stages, name, stage, []);
        var versions: seq<Version> :| Listed(stages, name, stage, versions);
        r := Found(versions);
      }
      log := log + [GetLatest(name, stage, r)];
    }

    /** `client.transition_model_version_stage(name, version, stage)`: may raise, and
        succeeds only for a registered version; on success the version is at `stage`. */
    method TransitionModelVersionStage(name: string, version: Version, stage: Stage) returns (ok: bool)
      modifies this
      ensures ok ==> ModelVersion(name, version) in old(stages)
      ensures stages == Step(old(stages), Transition(name, version, stage, ok))
      ensures log == old(log) + [Transition(name, version, stage, ok)]
    {
      ok :| ok ==> ModelVersion(name, version) in stages;
      if ok {
        stages := stages[ModelVersion(name, version) := stage];
      }
      log := log + [Transition(name, version, stage, ok)];
    }

    /** The loop `for version in prod_versions`: one archive attempt per version, a failure
        being reported and skipped. */
    method ArchiveAll(production: seq<Version>) returns (archived: seq<bool>)
      modifies this
      ensures |archived| == |production|
      ensures log == old(log) + ArchiveCalls(production, archived)
      ensures stages == Apply(old(stages), ArchiveCalls(production, archived))
    {
      archived := [];
      assert ArchiveCalls(production[..0], []) == [];
      for i := 0 to |production|
        invariant |archived| == i
        invariant log == old(log) + ArchiveCalls(production[..i], archived)
        invariant stages == Apply(old(stages), ArchiveCalls(production[..i], archived))
      {
        var ok := TransitionModelVersionStage(ModelName, production[i], Archived);
        assert ArchiveCalls(production[..i + 1], archived + [ok])
          == ArchiveCalls(production[..i], archived) + [Transition(ModelName, production[i], Archived, ok)];
        archived := archived + [ok];
      }
      assert production[..|production|] == production;
    }

    /** `promote_model`, given the value of the DAGSHUB_PAT environment variable. */
    method PromoteModel(token: Option<string>) returns (out: Outcome)
      modifies this
      ensures WellFormed(out)
      ensures out.CredentialMissing? <==> token.None? || token.value == ""
      ensures LookupsAgree(old(stages), out)
      ensures log == old(log) + Trace(out)
      ensures stages == Apply(old(stages), Trace(out))
    {
      if token.None? || token.value == "" {
        out := CredentialMissing;
        assert log == old(log) + [];
        return;
      }
      out := PromoteWithCredential();
    }

    /** What `promote_model` does once the credential is set: the Staging lookup, and the
        rest of the run when it lists a version. */
    method PromoteWithCredential() returns (out: Outcome)
      modifies this
      ensures WellFormed(out) && !out.CredentialMissing?
      ensures LookupsAgree(old(stages), out)
      ensures log == old(log) + Trace(out)
      ensures stages == Apply(old(stages), Trace(out))
    {
      var staging := GetLatestVersions(ModelName, Staging);
      ghost var lookup := [GetLatest(ModelName, Staging, staging)];
      if staging.LookupFailed? {
        out := StagingLookupFailed;
        assert Trace(out) == lookup;
        return;
      }
      if staging.versions == [] {
        out := NothingInStaging;
        assert Trace(out) == lookup;
        return;
      }
      out := PromoteFromStaging(staging.versions);
      TraceAfterLookup(old(stages), out);
      AppendAssoc(old(log), lookup, AfterStaging(out));
    }

    /** What `promote_model` does once the Staging lookup has listed `staging`: the
        Production lookup, the archive loop and the promotion of `staging[0]`. */
    method PromoteFromStaging(staging: seq<Version>) returns (out: Outcome)
      requires staging != []
      modifies this
      ensures WellFormed(out) && (out.ProductionLookupFailed? || out.Finished?) && out.staging == staging
      ensures out.Finished? ==> Listed(old(stages), ModelName, Production, out.production)
      ensures log == old(log) + AfterStaging(out)
      ensures stages == Apply(old(stages), AfterStaging(out))
    {
      var production := GetLatestVersions(ModelName, Production);
      if production.LookupFailed? {
        out := ProductionLookupFailed(staging);
        ApplyNoTransitions(old(stages), AfterStaging(out));
        return;
      }
      ghost var lookup := [GetLatest(ModelName, Production, production)];
      ApplyNoTransitions(old(stages), lookup);
      var archived := ArchiveAll(production.versions);
      ghost var archives := ArchiveCalls(production.versions, archived);
      ApplyAppend(old(stages), lookup, archives);
      var promoted := TransitionModelVersionStage(ModelName, staging[0], Production);
      out := Finished(staging, production.versions, archived, promoted);
      ghost var promote := [Transition(ModelName, staging[0], Production, promoted)];
      ApplyAppend(old(stages), lookup + archives, promote);
      assert AfterStaging(out) == lookup + archives + promote;
    }
  }
}

=== FILE: sentences.dfy ===
/** `remove_small_sentences`: blanks out, in place, every row of the text column that has
    fewer than three tokens. A row is an optional string; `None` stands for pandas' NaN. */
module Sentences {
  import opened Wrappers
  import opened Text

  /** The fewest tokens a row may have and still be kept. */
  const MinTokens: nat := 3

  /** What the pass leaves in a row that held `text`. */
  function CleanedRow(text: string): (r: Option<string>)
    ensures r.Some? ==> r.value == text && |Split(r.value)| >= MinTokens
    ensures r.None? <==> |Split(text)| < MinTokens
  {
    if |Split(text)| < MinTokens then None else Some(text)
  }

  /** Every row must hold a string: the source calls `.split()` on each cell and fails on NaN. */
  method RemoveSmallSentences(rows: array<Option<string>>)
    requires forall i :: 0 <= i < rows.Length ==> rows[i].Some?
    modifies rows
    ensures forall i :: 0 <= i < rows.Length ==> rows[i] == CleanedRow(old(rows[i]).value)
    ensures forall i :: 0 <= i < rows.Length && rows[i].Some? ==> |Split(rows[i].value)| >= MinTokens
  {
    for i := 0 to rows.Length
      invariant forall k :: 0 <= k < i ==> rows[k] == CleanedRow(old(rows[k]).value)
      invariant forall k :: i <= k < rows.Length ==> rows[k] == old(rows[k])
    {
      if |Split(rows[i].value)| < MinTokens {
        rows[i] := None;
      }
    }
  }
}

=== FILE: seqs.dfy ===
/** Sequence helpers shared by the text passes: order-preserving filtering and sub-sequences. */
module Seqs {

  /** `[x for x in s if keep(x)]`: the elements of `s` that `keep` accepts, in their original order. */
  function Filter<T>(s: seq<T>, keep: T -> bool): (r: seq<T>)
    ensures |r| <= |s|
    ensures forall i :: 0 <= i < |r| ==> keep(r[i])
  {
    if s == [] then []
    else (if keep(s[0]) then [s[0]] else []) + Filter(s[1..], keep)
  }

  /** `a` can be obtained from `b` by deleting elements (order is kept). */
  predicate IsSubsequence<T(==)>(a: seq<T>, b: seq<T>)
    decreases |b|
  {
    if a == [] then true
    else if b == [] then false
    else (a[0] == b[0] && IsSubsequence(a[1..], b[1..])) || IsSubsequence(a, b[1..])
  }

  /** A filtered sequence keeps the order of the elements it keeps. */
  lemma {:induction false} FilterIsSubsequence<T>(s: seq<T>, keep: T -> bool)
    ensures IsSubsequence(Filter(s, keep), s)
  {
    if s != [] {
      FilterIsSubsequence(s[1..], keep);
      var r := Filter(s[1..], keep);
      if keep(s[0]) {
        assert Filter(s, keep) == [s[0]] + r;
        assert ([s[0]] + r)[1..] == r;
      } else {
        assert Filter(s, keep) == r;
        SkipFirst(r, s);
      }
    }
  }

  /** Filtering keeps every accepted element exactly as often as it occurs, and no rejected one. */
  lemma {:induction false} FilterCounts<T>(s: seq<T>, keep: T -> bool)
    ensures forall x :: keep(x) ==> multiset(Filter(s, keep))[x] == multiset(s)[x]
    ensures forall x :: !keep(x) ==> multiset(Filter(s, keep))[x] == 0
  {
    if s != [] {
      FilterCounts(s[1..], keep);
      assert s == [s[0]] + s[1..];
      assert multiset(s) == multiset([s[0]]) + multiset(s[1..]);
      var r := Filter(s[1..], keep);
      if keep(s[0]) {
        assert multiset(Filter(s, keep)) == multiset([s[0]]) + multiset(r);
      } else {
        assert Filter(s, keep) == r;
      }
    }
  }

  /** A sub-sequence of the tail is a sub-sequence of the whole. */
  lemma {:induction false} SkipFirst<T>(a: seq<T>, b: seq<T>)
    requires b != [] && IsSubsequence(a, b[1..])
    ensures IsSubsequence(a, b)
  {
  }

  /** Filtering changes nothing when every element is accepted. */
  lemma {:induction false} FilterAllKept<T>(s: seq<T>, keep: T -> bool)
    requires forall i :: 0 <= i < |s| ==> keep(s[i])
    ensures Filter(s, keep) == s
  {
    if s != [] {
      FilterAllKept(s[1..], keep);
      assert s == [s[0]] + s[1..];
    }
  }

  /** Filtering twice with the same test is filtering once. */
  lemma FilterIdempotent<T>(s: seq<T>, keep: T -> bool)
    ensures Filter(Filter(s, keep), keep) == Filter(s, keep)
  {
    FilterAllKept(Filter(s, keep), keep);
  }

  /** Filtering keeps only elements of the input. */
  lemma {:induction false} FilterElements<T>(s: seq<T>, keep: T -> bool)
    ensures forall x :: x in Filter(s, keep) ==> x in s
  {
    if s != [] {
      FilterElements(s[1..], keep);
    }
  }

  /** Filtering distributes over concatenation. */
  lemma {:induction false} FilterAppend<T>(a: seq<T>, b: seq<T>, keep: T -> bool)
    ensures Filter(a + b, keep) == Filter(a, keep) + Filter(b, keep)
  {
    if a == [] {
      assert a + b == b;
    } else {
      assert (a + b)[0] == a[0];
      assert (a + b)[1..] == a[1..] + b;
      FilterAppend(a[1..], b, keep);
    }
  }

  /** The position of the last occurrence of `x` in `s`, or -1 when there is none. */
  function LastIndexOf<T(==)>(s: seq<T>, x: T): (j: int)
    ensures -1 <= j < |s|
    ensures j >= 0 ==> s[j] == x
    ensures forall i :: j < i < |s| ==> s[i] != x
  {
    if s == [] then -1
    else if s[|s| - 1] == x then |s| - 1
    else LastIndexOf(s[..|s| - 1], x)
  }

  /** Concatenation is associative. */
  lemma AppendAssoc<T>(a: seq<T>, b: seq<T>, c: seq<T>)
    ensures a + b + c == a + (b + c)
  {
  }
}

=== FILE: text.dfy ===
/**
 * Whitespace tokenisation as Python's `str` methods perform it, restricted to ASCII:
 * `s.split()` with no separator, `" ".join(words)`, `s.strip()`, and the character
 * classes the normaliser relies on.
 */
module Text {

  /** `c.isspace()` on ASCII: space, tab, line feed, vertical tab, form feed, carriage return and
      the four separators 0x1C-0x1F. `str.split()`, `str.strip()` and the regex class `\s` agree on it. */
  predicate IsSpace(c: char) {
    c == ' ' || 9 <= c as int <= 13 || 28 <= c as int <= 31
  }

  /** `c.isdigit()` on ASCII. */
  predicate IsDigit(c: char) {
    '0' <= c <= '9'
  }

  predicate IsUpper(c: char) {
    'A' <= c <= 'Z'
  }

  /** `c.lower()` on ASCII: upper-case letters map to lower case, everything else is kept. */
  function Lower(c: char): (r: char)
    ensures !IsUpper(r)
    ensures IsSpace(r) == IsSpace(c)
    ensures !IsUpper(c) ==> r == c
    ensures IsUpper(c) ==> 'a' <= r <= 'z' && r as int - 'a' as int == c as int - 'A' as int
  {
    if IsUpper(c) then (c as int + 32) as char else c
  }

  /** A token produced by `str.split()`: non-empty and without whitespace. */
  predicate IsWord(w: string) {
    |w| > 0 && forall i :: 0 <= i < |w| ==> !IsSpace(w[i])
  }

  predicate AllWords(ws: seq<string>) {
    forall i :: 0 <= i < |ws| ==> IsWord(ws[i])
  }

  predicate AllSpace(s: string) {
    forall i :: 0 <= i < |s| ==> IsSpace(s[i])
  }

  /** No whitespace at either end. */
  predicate Stripped(s: string) {
    s != [] ==> !IsSpace(s[0]) && !IsSpace(s[|s| - 1])
  }

  /** Every whitespace character is a plain space and is not followed by another whitespace character. */
  predicate SingleSpaced(s: string) {
    (forall i :: 0 <= i < |s| && IsSpace(s[i]) ==> s[i] == ' ') &&
    (forall i, j :: 0 <= i < |s| && j == i + 1 < |s| && IsSpace(s[i]) ==> !IsSpace(s[j]))
  }

  /** Canonical single-space separation: what `" ".join(s.split())` produces. */
  predicate Canonical(s: string) {
    Stripped(s) && SingleSpaced(s)
  }

  /** Length of the longest prefix of `s` without whitespace. */
  function WordLen(s: string): (n: nat)
    ensures n <= |s|
    ensures forall i :: 0 <= i < n ==> !IsSpace(s[i])
    ensures n < |s| ==> IsSpace(s[n])
  {
    if s == [] || IsSpace(s[0]) then 0 else 1 + WordLen(s[1..])
  }

  /** `s.split()`: the maximal runs of non-whitespace characters, left to right. */
  function Split(s: string): seq<string>
    decreases |s|
  {
    if s == [] then []
    else if IsSpace(s[0]) then Split(s[1..])
    else
      var n := WordLen(s);
      [s[..n]] + Split(s[n..])
  }

  /** `" ".join(ws)`. */
  function Join(ws: seq<string>): string
  {
    if ws == [] then ""
    else if |ws| == 1 then ws[0]
    else ws[0] + " " + Join(ws[1..])
  }

  /** `s.lstrip()`: drops the whitespace prefix. */
  function TrimLeft(s: string): (r: string)
    ensures |r| <= |s| && r == s[|s| - |r|..]
    ensures AllSpace(s[..|s| - |r|])
    ensures r == [] || !IsSpace(r[0])
  {
    if s != [] && IsSpace(s[0]) then
      var r := TrimLeft(s[1..]);
      TrimLeftStep(s, r);
      r
    else s
  }

  /** Dropping one more leading space keeps the dropped prefix all-space. */
  lemma TrimLeftStep(s: string, r: string)
    requires s != [] && IsSpace(s[0]) && |r| <= |s| - 1
    requires r == s[1..][|s| - 1 - |r|..] && AllSpace(s[1..][..|s| - 1 - |r|])
    ensures r == s[|s| - |r|..]
    ensures AllSpace(s[..|s| - |r|])
  {
    assert s[..|s| - |r|] == [s[0]] + s[1..][..|s| - 1 - |r|];
  }

  /** `s.rstrip()`: drops the whitespace suffix. */
  function TrimRight(s: string): (r: string)
    ensures |r| <= |s| && r == s[..|r|]
    ensures AllSpace(s[|r|..])
    ensures r == [] || !IsSpace(r[|r| - 1])
  {
    if s != [] && IsSpace(s[|s| - 1]) then TrimRight(s[..|s| - 1]) else s
  }

  /** `s.strip()`. */
  function Strip(s: string): string {
    TrimRight(TrimLeft(s))
  }

  /** Applies `f` to every token, keeping their order: `[f(w) for w in ws]`. */
  function MapWords(ws: seq<string>, f: string -> string): (r: seq<string>)
    ensures |r| == |ws|
    ensures forall i :: 0 <= i < |ws| ==> r[i] == f(ws[i])
  {
    seq(|ws|, i requires 0 <= i < |ws| => f(ws[i]))
  }

  // ---------------------------------------------------------------------------
  // Lemmas about Split and Join
  // ---------------------------------------------------------------------------

  /** The first token ends at the first whitespace even when more text follows it. */
  lemma {:induction false} WordLenAppend(s: string, t: string)
    requires WordLen(s) < |s| || t == [] || IsSpace(t[0])
    ensures WordLen(s + t) == WordLen(s)
  {
    if s != [] && !IsSpace(s[0]) {
      assert (s + t)[1..] == s[1..] + t;
      WordLenAppend(s[1..], t);
    }
  }

  /** A non-whitespace character in front extends the first token by one. */
  lemma WordLenCons(c: char, s: string)
    requires !IsSpace(c)
    ensures WordLen([c] + s) == 1 + WordLen(s)
    ensures ([c] + s)[..1 + WordLen(s)] == [c] + s[..WordLen(s)]
  {
    assert ([c] + s)[1..] == s;
  }

  /** Every token is non-empty and holds no whitespace. */
  lemma {:induction false} SplitWords(s: string)
    ensures AllWords(Split(s))
    decreases |s|
  {
    if s != [] {
      if IsSpace(s[0]) {
        SplitWords(s[1..]);
      } else {
        var n := WordLen(s);
        SplitWords(s[n..]);
        assert IsWord(s[..n]);
      }
    }
  }

  /** A word followed by whitespace, or by nothing, is the first token. */
  lemma SplitWordHead(w: string, rest: string)
    requires IsWord(w) && (rest == [] || IsSpace(rest[0]))
    ensures Split(w + rest) == [w] + Split(rest)
  {
    assert WordLen(w) == |w|;
    WordLenAppend(w, rest);
    assert (w + rest)[..|w|] == w;
    assert (w + rest)[|w|..] == rest;
  }

  /** A text made of whitespace only has no tokens. */
  lemma {:induction false} SplitAllSpace(s: string)
    requires AllSpace(s)
    ensures Split(s) == []
  {
    if s != [] {
      SplitAllSpace(s[1..]);
    }
  }

  /** Trailing whitespace does not change the tokens. */
  lemma {:induction false} SplitAppendSpace(s: string, t: string)
    requires AllSpace(t)
    ensures Split(s + t) == Split(s)
    decreases |s|
  {
    if s == [] {
      assert s + t == t;
      SplitAllSpace(t);
    } else if IsSpace(s[0]) {
      assert (s + t)[1..] == s[1..] + t;
      SplitAppendSpace(s[1..], t);
    } else {
      var n := WordLen(s);
      WordLenAppend(s, t);
      assert (s + t)[..n] == s[..n];
      assert (s + t)[n..] == s[n..] + t;
      SplitAppendSpace(s[n..], t);
    }
  }

  /** Leading whitespace does not change the tokens. */
  lemma {:induction false} SplitTrimLeft(s: string)
    ensures Split(TrimLeft(s)) == Split(s)
  {
    if s != [] && IsSpace(s[0]) {
      SplitTrimLeft(s[1..]);
    }
  }

  /** `s.strip().split() == s.split()`. */
  lemma SplitStrip(s: string)
    ensures Split(Strip(s)) == Split(s)
  {
    SplitTrimRight(TrimLeft(s));
    SplitTrimLeft(s);
  }

  /** Trailing whitespace does not change the tokens. */
  lemma SplitTrimRight(s: string)
    ensures Split(TrimRight(s)) == Split(s)
  {
    var r := TrimRight(s);
    assert s == r + s[|r|..];
    SplitAppendSpace(r, s[|r|..]);
  }

  /** Round trip: splitting a join of tokens gives back the tokens. */
  lemma {:induction false} SplitJoin(ws: seq<string>)
    requires AllWords(ws)
    ensures Split(Join(ws)) == ws
  {
    if |ws| == 1 {
      assert ws[0] + [] == ws[0];
      SplitWordHead(ws[0], []);
    } else if |ws| > 1 {
      var w, rest := ws[0], Join(ws[1..]);
      SplitJoin(ws[1..]);
      assert w + " " + rest == w + (" " + rest);
      SplitWordHead(w, " " + rest);
      assert (" " + rest)[1..] == rest;
      assert ws == [w] + ws[1..];
    }
  }

  /** Joining tokens gives canonical single-space separation, and the result is empty only for no tokens. */
  lemma {:induction false} JoinCanonical(ws: seq<string>)
    requires AllWords(ws)
    ensures Canonical(Join(ws))
    ensures Join(ws) == [] <==> ws == []
    ensures ws != [] ==> Join(ws)[0] == ws[0][0]
  {
    if |ws| > 1 {
      var w, rest := ws[0], Join(ws[1..]);
      JoinCanonical(ws[1..]);
      var s := w + " " + rest;
      forall i | 0 <= i < |s| && IsSpace(s[i])
        ensures s[i] == ' ' && (i + 1 < |s| ==> !IsSpace(s[i + 1]))
      {
        if i > |w| {
          assert s[i] == rest[i - |w| - 1];
        }
        if i + 1 > |w| && i + 1 < |s| {
          assert s[i + 1] == rest[i - |w|];
        }
      }
    }
  }

  /** Canonical text is the join of its own tokens. */
  lemma {:induction false} JoinSplit(s: string)
    requires Canonical(s)
    ensures Join(Split(s)) == s
    decreases |s|
  {
    if s != [] {
      var n := WordLen(s);
      if n == |s| {
        SplitWordHead(s, []);
        assert s + [] == s;
      } else {
        FirstGap(s, n);
        TailCanonical(s, n + 1);
        JoinSplit(s[n + 1..]);
        SplitAround(s, n);
        JoinSplitStep(s[..n], s[n + 1..]);
      }
    }
  }

  /** In canonical text the first token, when it is not the whole text, is followed by one
      space and then by the next token. */
  lemma FirstGap(s: string, n: nat)
    requires Canonical(s) && n == WordLen(s) < |s|
    ensures 0 < n && n + 1 < |s| && s[n] == ' ' && !IsSpace(s[n + 1])
    ensures IsWord(s[..n])
  {
  }

  /** A suffix of canonical text that starts with a token is canonical. */
  lemma TailCanonical(s: string, k: nat)
    requires Canonical(s) && k < |s| && !IsSpace(s[k])
    ensures Canonical(s[k..])
  {
    SingleSpacedSlice(s, k, |s|);
    assert s[k..][0] == s[k];
    assert s[k..][|s| - k - 1] == s[|s| - 1];
  }

  /** A text with a space at position `n` is what comes before it, the space, and what follows. */
  lemma SplitAround(s: string, n: nat)
    requires n < |s| && s[n] == ' '
    ensures s == s[..n] + " " + s[n + 1..]
  {
    assert s[..n + 1] == s[..n] + " ";
    assert s == s[..n + 1] + s[n + 1..];
  }

  /** The inductive step of `JoinSplit`: a word, one space, and a text that is the join of
      its own tokens. */
  lemma JoinSplitStep(w: string, t: string)
    requires IsWord(w) && t != [] && !IsSpace(t[0]) && Join(Split(t)) == t
    ensures Join(Split(w + " " + t)) == w + " " + t
  {
    assert w + " " + t == w + (" " + t);
    SplitWordHead(w, " " + t);
    assert (" " + t)[1..] == t;
    JoinCons(w, Split(t));
  }

  /** `" ".join` puts one space between the first token and the join of the others. */
  lemma JoinCons(w: string, ws: seq<string>)
    requires ws != []
    ensures Join([w] + ws) == w + " " + Join(ws)
  {
    assert ([w] + ws)[1..] == ws;
  }

  /** Characterisation of `str.strip()`'s result: it has no whitespace at either end, it
      equals the input when the input already has none, and it is a slice of the input. */
  lemma StripSpec(s: string)
    ensures Stripped(Strip(s))
    ensures Stripped(s) ==> Strip(s) == s
    ensures exists a, b :: 0 <= a <= b <= |s| && Strip(s) == s[a..b]
  {
    StripStripped(s);
    StripIdentity(s);
    StripSlice(s);
  }

  lemma StripStripped(s: string)
    ensures Stripped(Strip(s))
  {
    var l := TrimLeft(s);
    var r := TrimRight(l);
    if r != [] {
      assert r[0] == l[0];
    }
  }

  lemma StripIdentity(s: string)
    ensures Stripped(s) ==> Strip(s) == s
  {
    if Stripped(s) && s != [] {
      assert TrimLeft(s) == s;
      assert TrimRight(s) == s;
    }
  }

  lemma StripSlice(s: string)
    ensures exists a, b :: 0 <= a <= b <= |s| && Strip(s) == s[a..b]
  {
    var l := TrimLeft(s);
    var r := TrimRight(l);
    assert r == s[|s| - |l|..|s| - |l| + |r|];
  }

  /** A slice of single-spaced text is single-spaced. */
  lemma SingleSpacedSlice(s: string, a: nat, b: nat)
    requires a <= b <= |s| && SingleSpaced(s)
    ensures SingleSpaced(s[a..b])
  {
    var t := s[a..b];
    forall i | 0 <= i < |t| && IsSpace(t[i])
      ensures t[i] == ' ' && (i + 1 < |t| ==> !IsSpace(t[i + 1]))
    {
      assert t[i] == s[a + i];
      if i + 1 < |t| {
        assert t[i + 1] == s[a + i + 1];
      }
    }
  }
}

=== FILE: wrappers.dfy ===
/** An optional value: a table cell that may be missing (pandas' NaN), or an environment
    variable that may be unset. */
module Wrappers {

  datatype Option<T> = None | Some(value: T)
}
